=== FILE: README.md ===
# Ogiri corpus preparation — a Dafny model

This project models the two pieces of pure logic that build the ogiri
(caption-the-prompt) training corpora. It proves properties of both.

- **Bokete selection** (`src/bokete_preprocess/bokete_preprocess.py`).
  - Every raw response gets a canonical task type, a star count parsed from the
    comma-separated display form, and a prompt (*odai*) resolved from the task
    and the OCR table.
  - Responses with an empty text, an empty prompt or a held-out file name are
    dropped.
  - Stars are summed per task and image.
  - For each task, the images with the highest totals are kept, up to a
    configured threshold.
  - Each kept image becomes one training sample `ogiri-bokete-{n}`. It holds the
    image's best responses, up to ten, numbered from 1. The counter `n` runs across all
    tasks.
- **Keitai crawler post-processing** (`src/keitai/keitai_crawling.py`). The HTML
  parser and the name regex hand over strings. The model turns them into answer
  records:
  - the prompt is the second full-width-space part of a heading;
  - the prefecture and pen name are picked from the name tokens;
  - the rank is wrapped in full-width parentheses;
  - the number cell becomes a total answer id;
  - the antenna image address becomes a score;
  - headings and rows are numbered;
  - the fixed list of 310 episode ids is generated.

Files:

| file | contents |
|---|---|
| `wrappers.dfy` | `Option`, `Result` |
| `seqs.dfy` | `Filter` (list comprehension with a condition), Python's `s[:k]`, distinct values, multiset facts |
| `decimal.dfy` | decimal digits, `str(int)`, `f"{i:03}"`, Python's `int(s)` on ASCII digits |
| `text.dfy` | `startswith`, `endswith`, `in`, `str.split` and `str.join` on one character |
| `sorting.dfy` | stable insertion sort by an integer key, its stability, ascending distinct keys (the order `groupby` visits groups) |
| `bokete.dfy` | records, task codes, star parsing, prompt resolution, the usable-record filter, score sums |
| `bokete_select.dfy` | `choose_train_data` and the whole run of the preparation script |
| `keitai.dfy` | the crawler's record extraction and the episode list |

Design choices:

- **Errors.** A run that Python aborts with an exception returns an `Err`.
  - In the preparation script these are: an unknown task code, a star that does
    not parse, and a task with no threshold or no score totals.
  - In the crawler these are: a response cell without `font`, a name part
    without tokens, a number cell that is not an integer, and no answers at all.
- **Crawler scores** are integer half-points: 3.0, 2.0, 2.5 and 1.0 become 6, 4,
  5 and 2; -1 becomes -2.
- **Image ranking.** Ties in total stars go to the smaller image id. Python's
  `sorted(..., reverse=True)` is stable, and the score dictionary is filled in
  ascending image order by `groupby`.
- **Response ranking.** Nothing is claimed about the order of responses with
  equal stars, because pandas' default sort is not stable. The model sorts
  stably, but every contract holds for any descending order.
- **Sample file name and prompt.** These come from the row the response loop
  stopped at: the eleventh-best row, or the group's last row when it has at
  most ten. The contracts say "some row of the group of this image and task".
  All rows of one task and image carry the same prompt (`PreparedPromptsAgree`).

## Model

| member | source | states |
|---|---|---|
| `Bokete.TaskOfCode` | src/bokete_preprocess/bokete_preprocess.py:128 | `I2T` gives image_to_text, `T2T` text_to_text, `IT2T` image_text_to_text; the lookup fails exactly for every other code |
| `Bokete.TaskColumn` | src/bokete_preprocess/bokete_preprocess.py:88 | the task column succeeds iff every code is known, and then maps each row to its task; otherwise the error names the first unknown code |
| `Bokete.FileName` | src/bokete_preprocess/bokete_preprocess.py:89 | the name ends in `.jpg` and what precedes it is exactly Python's `str` of the image id: canonical decimal text (no leading zero, no `+`, `-` only for a negative id) that reads back as the id |
| `Bokete.FileNameInjective` | src/bokete_preprocess/bokete_preprocess.py:89 | `f"{image}.jpg"` names one image only, so matching the held-out list by file name excludes exactly the listed images |
| `Bokete.StripCommas` | src/bokete_preprocess/bokete_preprocess.py:90 | every character but `,` kept as often as in the input and in the same order, no `,` left |
| `Bokete.ParseStar` | src/bokete_preprocess/bokete_preprocess.py:90 | succeeds exactly when the comma-free text is an integer literal, and then gives its value; otherwise the error carries the star text |
| `Bokete.StarIgnoresComma` | src/bokete_preprocess/bokete_preprocess.py:90 | inserting a comma anywhere changes neither whether a star parses nor its value |
| `Bokete.ParseStarThousands` | src/bokete_preprocess/bokete_preprocess.py:90 | the thousands-separated display form of any count reads back as that count |
| `Bokete.ParseStarPlain` | src/bokete_preprocess/bokete_preprocess.py:90 | a star stored as a number (`str(x)` of an int) reads back as itself |
| `Bokete.ParseStarExample` | src/bokete_preprocess/bokete_preprocess.py:90 | `"1,234"` gives 1234 |
| `Bokete.StarColumn` | src/bokete_preprocess/bokete_preprocess.py:90 | the star column succeeds iff every star parses, and then holds each row's value; otherwise the error names the first bad star |
| `Bokete.FirstOcrText` | src/bokete_preprocess/bokete_preprocess.py:31-34 | absent iff no OCR record has the image; otherwise the text of the first record that has it |
| `Bokete.ResolvePrompt` | src/bokete_preprocess/bokete_preprocess.py:26-42 | `画像で一言` for image_to_text whatever the OCR table holds; `""` for the other tasks with no OCR record; for text_to_text the first matching OCR text; for image_text_to_text the instruction plus that text when it contains `[空欄]`, else `""` |
| `Bokete.BlankPromptShape` | src/bokete_preprocess/bokete_preprocess.py:35-39 | a fill-in-the-blank prompt is empty, or the instruction followed by a text holding `[空欄]` |
| `Bokete.BlankPromptExample` | src/bokete_preprocess/bokete_preprocess.py:35-39 | an OCR text `[空欄]foo` gives the instruction line followed by `[空欄]foo` |
| `Bokete.PrepareRecords` | src/bokete_preprocess/bokete_preprocess.py:88-102 | succeeds iff every code is known and every star parses; on success, row `i` keeps its image and response, with the task of its code, the value of its star and its resolved prompt; an unknown code anywhere makes it fail with a task error, and otherwise a bad star makes it fail with a star error |
| `Bokete.PreparedPromptsAgree` | src/bokete_preprocess/bokete_preprocess.py:102 | two prepared rows of the same task and image carry the same prompt |
| `Bokete.FilterUsable` | src/bokete_preprocess/bokete_preprocess.py:104-106 | keeps a record iff its response and prompt are non-empty and its file name is not held out; multiplicities are kept and the result is a subsequence of the input |
| `Bokete.Group` | src/bokete_preprocess/bokete_preprocess.py:48 | the records of the task and image, each as often as in the input and in input order |
| `Bokete.GroupSum` | src/bokete_preprocess/bokete_preprocess.py:48-50 | summing a group's stars equals the reference total of every matching record's stars |
| `Bokete.TaskImages` | src/bokete_preprocess/bokete_preprocess.py:48 | the images present among a task's records, strictly ascending, each once |
| `Bokete.TaskTotals` | src/bokete_preprocess/bokete_preprocess.py:46-51 | one entry per image present among the task's records, in ascending image order, each holding that image's star total |
| `Bokete.ScoreSums` | src/bokete_preprocess/bokete_preprocess.py:44-52 | keys exactly the listed tasks; per task, the entries list exactly the images of that task, ascending, with their star totals |
| `BoketeSelect.OdaiId` | src/bokete_preprocess/bokete_preprocess.py:76 | the id is `ogiri-bokete-` followed by Python's `str` of the counter: canonical decimal text (no leading zero, no `+`, `-` only for a negative value) that reads back as the counter value |
| `BoketeSelect.OdaiIdInjective` | src/bokete_preprocess/bokete_preprocess.py:76 | different counter values give different `ogiri-bokete-{n}` ids |
| `BoketeSelect.RankImages` | src/bokete_preprocess/bokete_preprocess.py:62 | a permutation of the totals with non-increasing totals |
| `BoketeSelect.RankingIsStable` | src/bokete_preprocess/bokete_preprocess.py:62 | the ranking is ordered by total and then by ascending image id |
| `BoketeSelect.KeptItems` | src/bokete_preprocess/bokete_preprocess.py:61-62 | `[:threshold]` keeps `min(threshold, n)` entries (`max(0, n + threshold)` for a negative threshold), drawn from the totals; every kept entry beats every dropped one by total, ties by smaller image id |
| `BoketeSelect.KeptImages` | src/bokete_preprocess/bokete_preprocess.py:62 | the kept image ids, one per kept entry, and exactly the images listed among them |
| `BoketeSelect.RankResponses` | src/bokete_preprocess/bokete_preprocess.py:68 | a permutation of the group with non-increasing stars |
| `BoketeSelect.TopResponses` | src/bokete_preprocess/bokete_preprocess.py:68-71 | `min(10, n)` rows of the group, best first, each with at least as many stars as every row left out |
| `BoketeSelect.BuildSample` | src/bokete_preprocess/bokete_preprocess.py:64-79 | a sample exists iff the group is non-empty; it has the counter value and the task, 1..10 responses numbered 1..n with non-increasing scores, `min(10, n)` of them, each the text and star of a row of the group, and the file name and prompt of a row of the group |
| `BoketeSelect.SampleResponsesAreTop` | src/bokete_preprocess/bokete_preprocess.py:68-71 | a sample built from a group carries, position by position, the text and star of the group's best rows (`TopResponses`: up to ten, by descending star) |
| `BoketeSelect.EmitGroups` | src/bokete_preprocess/bokete_preprocess.py:64-79 | the counter advances once per visited group; the samples come in visiting order with strictly increasing numbers, the one numbered `counter + k + 1` coming from the group at position `k`, which has rows, names the sample and supplies its best rows as responses; every group with rows has its sample, so there is exactly one sample per non-empty group; each sample is well formed and labelled by a row of its task |
| `Seqs.SomesKeyed` | src/bokete_preprocess/bokete_preprocess.py:64-79 | when the present entry at position `i` has key `base + i`, the present values come out in strictly increasing key order, so dropping empty groups keeps the visiting order |
| `BoketeSelect.BuiltAt` | src/bokete_preprocess/bokete_preprocess.py:64-76 | the sample of the group at position `k` carries number `counter + k + 1`, is named after that group's image and holds the best rows of that group as responses |
| `BoketeSelect.GroupWithinKept` | src/bokete_preprocess/bokete_preprocess.py:64 | restricting the frame to kept images does not change the group of a kept image, so a sample answered within the filtered frame is answered by all rows of its task and image |
| `BoketeSelect.EmitAllGroups` | src/bokete_preprocess/bokete_preprocess.py:64-76 | when every visited image has rows, the samples are numbered consecutively from `counter + 1` and named after the visited images in order |
| `BoketeSelect.NumberedIdsDistinct` | src/bokete_preprocess/bokete_preprocess.py:57-65 | consecutively numbered samples have pairwise different ids |
| `BoketeSelect.SelectTask` | src/bokete_preprocess/bokete_preprocess.py:60-79 | for one task: samples numbered without gaps from `counter + 1`, the counter advanced by their number, each labelled by a row of the task about a kept image and answered by the best rows of all the rows of that task and image; when every image with a total has rows of the task, exactly one sample per kept image, in ascending image order |
| `BoketeSelect.KeptInOrder` | src/bokete_preprocess/bokete_preprocess.py:62-64 | when every image with a total has rows of the task, the groups `groupby` visits are exactly the kept images, ascending |
| `BoketeSelect.FollowsAppend` | src/bokete_preprocess/bokete_preprocess.py:56-79 | samples that fill two plans, concatenated, fill the concatenated plan (the shared `new_format_list`) |
| `BoketeSelect.ChooseUsable` | src/bokete_preprocess/bokete_preprocess.py:104-111 | totals computed from the usable rows back every image, so selection fails only for a missing threshold, naming the first task without one, and otherwise fills the usable rows' schedule |
| `BoketeSelect.SelectFrom` | src/bokete_preprocess/bokete_preprocess.py:60-79 | on failure some task has no threshold (threshold error) or has a threshold but no totals (scores error); on success (`SelectedFrom`) every task has both, the samples are numbered without gaps from `counter + 1` across tasks, well formed, of a listed task, labelled by a row of their task, answered by the best rows of their task and image, and, when the totals are backed by the rows, fill the `Schedule` slot for slot: task after task, one sample per kept image in ascending image order |
| `BoketeSelect.SelectFailsAtFirst` | src/bokete_preprocess/bokete_preprocess.py:60-62 | the run fails exactly when `FirstUnconfigured` names a task, and then with that task's `KeyError`: the threshold lookup first, the totals lookup second; otherwise it succeeds |
| `BoketeSelect.FirstUnconfiguredIsFirst` | src/bokete_preprocess/bokete_preprocess.py:60-62 | every task before the one `FirstUnconfigured` names has a threshold and totals, so the error names the first task in order that lacks either |
| `BoketeSelect.ChooseTrainData` | src/bokete_preprocess/bokete_preprocess.py:54-83 | fails iff one of the three tasks lacks a threshold or totals, and then with the `KeyError` of the first such task in task order; otherwise the ids run `ogiri-bokete-1`, `-2`, ... without gaps, with well-formed responses that are the best rows of the sample's task and image, labels from rows of the sample's task, and one sample per kept image of each task in the order of `Schedule` |
| `BoketeSelect.Preprocess` | src/bokete_preprocess/bokete_preprocess.py:85-111 | fails iff preparing the records fails (with that error) or a task has no threshold (with the threshold error of the first such task; never for missing totals, since the totals cover every task); on success the samples are numbered from 1, well formed, with a file name that is not held out, a non-empty prompt resolved for its image and the best usable rows of its task and image as responses, one per kept image of the usable rows' totals, task after task |
| `BoketeSelect.UsableSamples` | src/bokete_preprocess/bokete_preprocess.py:102-106 | a sample labelled by a filtered record has a usable file name and prompt |
| `Keitai.HeadingPrompt` | src/keitai/keitai_crawling.py:35-38 | a heading without a full-width space is its own prompt; otherwise the prompt has no full-width space and sits between the first and the second separator |
| `Keitai.SecondPartIsPrompt` | src/keitai/keitai_crawling.py:35-38 | conversely, any text `a　odai` or `a　odai　...` with no separator in `a` or `odai` has prompt `odai` |
| `Keitai.NameTokens` | src/keitai/keitai_crawling.py:57-58 | exactly the non-empty parts of the name split on full-width spaces, each as often as in the split and in the split's order |
| `Keitai.SingleNameToken` | src/keitai/keitai_crawling.py:57-58 | a non-empty name without full-width spaces is one token |
| `Keitai.PrefectureScan` | src/keitai/keitai_crawling.py:59-61 | the loop ends with the last token ending in 東京都, 北海道, 府 or 県, or with its start value when there is none |
| `Keitai.Prefecture` | src/keitai/keitai_crawling.py:59-64 | the last prefecture-like token; failing that the second-to-last token when there are two or more; failing that `""` |
| `Keitai.Rank` | src/keitai/keitai_crawling.py:66 | empty iff group 3 is absent or empty; otherwise group 3 enclosed in `（` and `）` |
| `Keitai.NameFields` | src/keitai/keitai_crawling.py:50-66 | all empty without a match; an error iff the name part has no token; otherwise the pen name is the last token (non-empty, no separator), with the prefecture and rank above |
| `Keitai.TotalAnswerId` | src/keitai/keitai_crawling.py:68-71 | -1 for an empty number cell; otherwise the cell's integer value, or an error when it is not an integer |
| `Keitai.TotalAnswerIdOfShown` | src/keitai/keitai_crawling.py:68-71 | a cell holding the decimal text of `i` gives `i` |
| `Keitai.AntennaImagesDiffer` | src/keitai/keitai_crawling.py:75-81 | the four known image addresses are pairwise different |
| `Keitai.ScoreHalves` | src/keitai/keitai_crawling.py:74-86 | 6, 4, 5, 2 half-points for the four known images; for any other address -2 inside the blog's image folder and 0 elsewhere, no image included |
| `Keitai.ScoreOfFolder` | src/keitai/keitai_crawling.py:74-86 | the four known images lie inside the folder, so the exact matches must be tested first; a score is non-zero iff the image is in the folder, and lies in -2..6 |
| `Keitai.ExtractRow` | src/keitai/keitai_crawling.py:44-107 | no record for a row of at most two cells; a wider row fails iff the response cell has no `font`, the name match is unusable or the total answer id does not parse, and the first of these in that order names the error; otherwise the record carries the heading's ids and prompt and the row's response, name fields, total answer id, score and award text |
| `Keitai.CrawlRows` | src/keitai/keitai_crawling.py:43-107 | succeeds iff every body row from `i` on extracts without an error; then one record per wide row, in row order with strictly increasing answer ids, each record being exactly what `ExtractRow` gives for the wide row at the position its answer id names |
| `Keitai.CrawlHeading` | src/keitai/keitai_crawling.py:39-45 | no table gives no record; otherwise it succeeds iff every row after the header row extracts, with one record per wide such row, answer ids strictly increasing, and each record the `ExtractRow` result of the body row numbered by its answer id (counting from 1), carrying the heading's ids and prompt |
| `Keitai.CrawlHeadings` | src/keitai/keitai_crawling.py:32-45 | succeeds iff every heading from `i` on crawls; then the records with prompt id `k + 1` are exactly the records of heading `k` crawled alone, in order, prompt ids never decrease, and each record carries the prompt of the heading it is numbered after |
| `Keitai.HeadingsCons` | src/keitai/keitai_crawling.py:33-45 | the records of heading `i` come before records of later headings, keep prompt order, and all come from the page's headings |
| `Keitai.CrawlPage` | src/keitai/keitai_crawling.py:10-45 | a page that cannot be fetched gives no record; otherwise it succeeds iff every heading crawls, and the records with prompt id `k + 1` are exactly those of heading `k`, all with the page's episode id |
| `Decimal.ZeroPad3` | src/keitai/keitai_crawling.py:116 | `f"{i:03}"`: digits only, reading back as `i`, three of them below 1000 |
| `Keitai.EpisodeIds` | src/keitai/keitai_crawling.py:115-116 | 310 ids: `001`..`303` as three digits, then the seven special ids |
| `Keitai.EpisodeIdsDistinct` | src/keitai/keitai_crawling.py:115-116 | no episode id occurs twice |
| `Keitai.CrawlEpisodes` | src/keitai/keitai_crawling.py:119-126 | succeeds iff every page from `i` on crawls; every record comes from a listed episode, and for distinct ids the records of each episode are exactly those of its page, with the episodes in list order |
| `Keitai.EpisodesCons` | src/keitai/keitai_crawling.py:119-126 | a page's records followed by those of the later pages: the episode's records are exactly its page's, and the later episodes keep theirs |
| `Keitai.EpisodesOrder` | src/keitai/keitai_crawling.py:119-126 | the records of one episode followed by ordered records of later episodes stay in list order, so the concatenation keeps the episode order |
| `Keitai.PositionOfDistinct` | src/keitai/keitai_crawling.py:116-119 | in a list of distinct episode ids the id at position `i` is found at `i`, so the position of a record's episode is its place in the list |
| `Keitai.CrawlList` | src/keitai/keitai_crawling.py:118-128 | the loop of `main` over any list of distinct episode ids: succeeds iff every page crawls and some page has a record, with each episode's records exactly its page's and the episodes in list order |
| `Keitai.CrawlAll` | src/keitai/keitai_crawling.py:115-128 | succeeds iff every page crawls and some page has a record; then the records of each episode are exactly those of its page, in the order of the episode list, and none is from an unlisted episode; when every page crawls but none has a record, or no page can be fetched, it fails as `df.reset_index()` on `None` does |
| `Decimal.ParseInt` | src/bokete_preprocess/bokete_preprocess.py:90 | Python `int()` on an optional sign and ASCII digits: succeeds exactly for that shape, with the sign of the text |
| `Decimal.ParseShowInt` | src/bokete_preprocess/bokete_preprocess.py:90 | reading back the decimal text of any integer gives the integer (the partner of `ParseInt`) |
| `Decimal.CanonicalIsShown` | src/bokete_preprocess/bokete_preprocess.py:76 | every canonical decimal text is the `str` of the integer it reads as, so the canonical shape together with the read-back value fixes the text of an id or a file name |
| `Text.Split` | src/keitai/keitai_crawling.py:35-36 | `split` on one character: at least one part, more than one iff the separator occurs, no part holds the separator, the parts joined back give the text, and the first part is the text up to the first separator |
| `Seqs.SliceTo` | src/bokete_preprocess/bokete_preprocess.py:62 | Python `s[:k]`: a prefix of length `min(k, n)`, or `max(0, n + k)` for a negative `k` |
| `Seqs.Position` | src/keitai/keitai_crawling.py:119 | the first position holding a value, or the length when it is absent: the place of an episode in the list |
| `Sorting.Ascending` | src/bokete_preprocess/bokete_preprocess.py:48 | the order `groupby` visits keys: strictly ascending, holding exactly the values present |
| `Sorting.StrictlySameMembers` | src/bokete_preprocess/bokete_preprocess.py:48 | two strictly ascending lists with the same members are equal, so the visiting order is fixed by the set of keys |
| `Seqs.GroupedCons` | src/keitai/keitai_crawling.py:32-45 | the records keyed `start + i` followed by records with larger keys, each key's records being its part, stay grouped part by part |

## Left out

- HTTP fetching, HTML caching, `time.sleep`, BeautifulSoup navigation and the
  name regex: the model takes their results as inputs (`Row`, `Heading`,
  `NameMatch`, and a `fetch` function for the pages).
- The missing-content-div `IndexError` (`find_all(...)[0]`): a fetched page is
  taken to have its content div.
- The truthiness tests `if parent:` and `if table:`. A found tag is always
  truthy, so only a missing table is modelled (`Heading.table == None`).
- `normalize` (the hojichar filters): its result is an input field
  (`RawRecord.response`, `OcrRecord.text`). No property of it is claimed.
- The OCR script `openai_api_ocr.py`: it is network calls and file bookkeeping.
- File I/O: reading the corpus, the held-out list and the OCR results;
  `shutil.copy`; writing JSON; logging; loading the settings. The thresholds and
  the held-out file names are parameters.
- Floating-point crawler scores: they are integer half-points.
- Decimal.ParseInt: accepts an optional sign and ASCII digits only. Python's
  `int` also accepts surrounding whitespace, `_` between digits and non-ASCII
  digits, so `Bokete.ParseStar` and `Keitai.TotalAnswerId` reject some texts
  Python accepts.
- BoketeSelect.BuildSample: states that the file name and prompt come from some
  row of the group, not from the row at position `min(10, n - 1)` of the ranked
  group. That position depends on the order of equal stars, which pandas leaves
  unspecified.
- BoketeSelect.TopResponses: does not say which of several rows with equal stars
  are taken, for the same reason.
- BoketeSelect.SelectTask: promises one sample per kept image only when every
  image with a total has rows of the task. Totals computed by `ScoreSums` from
  the same rows always do (`ChooseUsable`); for arbitrary totals a kept image
  without rows is skipped, as the `groupby` over the filtered frame skips it.
- Bokete.ScoreSums: star values and their totals are unbounded integers. pandas
  parses the star column to int64, and `g['star'].sum()` wraps around past
  2^63 - 1; totals that large are not modelled.
- Bokete.ParseStar: a parsed value outside the int64 range is kept, where pandas
  would fall back to an object column; the model does not distinguish the two.
- The `total_scores` field in the commented-out line 75 is not part of the output
  and is not modelled.
- The DataFrame index reset and drop (lines 105-106 and 128-129) only renumber
  rows and are not modelled. Line 130 turns the episode ids into strings; in the
  model they are strings from the start.

=== FILE: bokete.dfy ===
/** Preparation of the Bokete caption corpus, up to the score aggregation:
    task codes, star parsing, prompt (odai) resolution, the usable-record
    filter and the per-task, per-image star totals. */
module Bokete {
  import opened Wrappers
  import opened Seqs
  import opened Decimal
  import opened Text
  import opened Sorting

  /** The three caption tasks. */
  datatype TaskType = ImageToText | TextToText | ImageTextToText

  /** The fixed table of raw task codes; any other code makes the lookup fail. */
  function TaskOfCode(code: string): (t: Option<TaskType>)
    ensures t.None? <==> code !in ["I2T", "T2T", "IT2T"]
    ensures code == "I2T" ==> t == Some(ImageToText)
    ensures code == "T2T" ==> t == Some(TextToText)
    ensures code == "IT2T" ==> t == Some(ImageTextToText)
  {
    if code == "I2T" then Some(ImageToText)
    else if code == "T2T" then Some(TextToText)
    else if code == "IT2T" then Some(ImageTextToText)
    else None
  }

  /** The order in which the selection visits the tasks: the code table's order. */
  const TaskOrder: seq<TaskType> := [ImageToText, TextToText, ImageTextToText]

  /** One crowd response as read from the corpus. `response` is what the text
      normalizer made of the raw text ("" when a content or length filter
      discarded it); the normalizer itself is not modelled. */
  datatype RawRecord = RawRecord(image: int, code: string, star: string, response: string)

  /** One OCR result; `text` is already normalized. */
  datatype OcrRecord = OcrRecord(image: int, text: string)

  /** A response after preparation: canonical task, parsed star count and the
      resolved prompt. */
  datatype Record = Record(image: int, task: TaskType, star: int, response: string, odai: string)

  /** The ways a run aborts. */
  datatype Error =
    | UnknownTaskCode(code: string)
    | MalformedStar(star: string)
    | MissingThreshold(task: TaskType)
    | MissingScores(task: TaskType)

  /** The image file of an image id, `f"{image}.jpg"`: the id in decimal, then
      the extension. */
  function FileName(image: int): (name: string)
    ensures |name| > 4 && name[|name| - 4..] == ".jpg"
    ensures ParseInt(name[..|name| - 4]) == Some(image)
    ensures CanonicalInt(name[..|name| - 4])
  {
    ParseShowInt(image);
    assert (ShowInt(image) + ".jpg")[..|ShowInt(image)|] == ShowInt(image);
    ShowInt(image) + ".jpg"
  }

  /** A file name identifies its image: the held-out list, which is matched
      by file name, excludes exactly the listed images. */
  lemma FileNameInjective(a: int, b: int)
    requires FileName(a) == FileName(b)
    ensures a == b
  {
    var sa, sb := ShowInt(a), ShowInt(b);
    assert |sa| == |sb|;
    assert sa == FileName(a)[..|sa|];
    assert sb == FileName(b)[..|sb|];
    ShowIntInjective(a, b);
  }

  // ---------------------------------------------------------------- stars

  /** `s.replace(',', '')`. */
  function StripCommas(s: string): (r: string)
    ensures ',' !in r
    ensures forall c :: multiset(r)[c] == if c == ',' then 0 else multiset(s)[c]
    ensures IsSubsequence(r, s)
  {
    var p := (c: char) => c != ',';
    FilterCounts(s, p);
    FilterIsSubsequence(s, p);
    Filter(s, p)
  }

  /** The star column: every comma removed, then Python's `int`. */
  function ParseStar(star: string): (r: Result<int, Error>)
    ensures r.Ok? <==> ParseInt(StripCommas(star)).Some?
    ensures r.Err? ==> r.error == MalformedStar(star)
    ensures r.Ok? ==> ParseInt(StripCommas(star)) == Some(r.value)
  {
    match ParseInt(StripCommas(star))
    case Some(n) => Ok(n)
    case None => Err(MalformedStar(star))
  }

  /** A comma anywhere in the star text is ignored: removing it changes neither
      whether the text parses nor the number it gives. */
  lemma StarIgnoresComma(a: string, b: string)
    ensures ParseStar(a + "," + b).Ok? <==> ParseStar(a + b).Ok?
    ensures ParseStar(a + "," + b).Ok? ==> ParseStar(a + "," + b).value == ParseStar(a + b).value
  {
    var p := (c: char) => c != ',';
    FilterAppend(a + ",", b, p);
    FilterAppend(a, ",", p);
    FilterAppend(a, b, p);
    assert Filter(",", p) == [];
    assert StripCommas(a + "," + b) == StripCommas(a + b);
  }

  /** The site's display format of a star count, with a comma every three digits. */
  function WithThousands(n: nat): (s: string)
    decreases n
  {
    if n < 1000 then ShowNat(n) else WithThousands(n / 1000) + "," + ZeroPad3(n % 1000)
  }

  /** Removing the commas of `hi + "," + lo` joins the comma-free parts. */
  lemma StripAroundComma(hi: string, lo: string)
    requires ',' !in lo
    ensures StripCommas(hi + "," + lo) == StripCommas(hi) + lo
  {
    var p := (c: char) => c != ',';
    FilterAppend(hi + ",", lo, p);
    FilterAppend(hi, ",", p);
    assert Filter(",", p) == [];
    FilterAllKept(lo, p);
  }

  lemma {:induction false} StripThousands(n: nat)
    ensures AllDigits(StripCommas(WithThousands(n)))
    ensures |StripCommas(WithThousands(n))| >= 1
    ensures DigitsValue(StripCommas(WithThousands(n))) == n
    decreases n
  {
    if n < 1000 {
      FilterAllKept(ShowNat(n), (c: char) => c != ',');
    } else {
      var hi, lo := WithThousands(n / 1000), ZeroPad3(n % 1000);
      StripThousands(n / 1000);
      assert ',' !in lo by {
        assert forall k :: 0 <= k < |lo| ==> IsDigit(lo[k]);
      }
      StripAroundComma(hi, lo);
      var d := StripCommas(hi);
      DigitsValueAppend(d, lo);
      assert Pow10(|lo|) == 1000;
      assert DigitsValue(d + lo) == (n / 1000) * 1000 + n % 1000;
    }
  }

  /** Reading back the display format gives the star count: `"1,234"` is 1234. */
  lemma ParseStarThousands(n: nat)
    ensures ParseStar(WithThousands(n)) == Ok(n)
  {
    StripThousands(n);
  }

  /** A star already stored as a number (its `str` has no comma) reads back as itself. */
  lemma ParseStarPlain(i: int)
    ensures ParseStar(ShowInt(i)) == Ok(i)
  {
    var s := ShowInt(i);
    assert forall k :: 0 <= k < |s| ==> s[k] != ',' by {
      if i < 0 {
        assert forall k :: 1 <= k < |s| ==> s[k] == ShowNat(-i)[k - 1];
      }
    }
    FilterAllKept(s, (c: char) => c != ',');
    ParseShowInt(i);
  }

  lemma ParseStarExample()
    ensures ParseStar("1,234") == Ok(1234)
  {
    ThousandsExample();
    ParseStarThousands(1234);
  }

  /** `234` needs no padding. */
  lemma PadExample()
    ensures ZeroPad3(234) == "234"
  {
    assert ShowNat(2) == "2";
    assert ShowNat(23) == "23";
    assert ShowNat(234) == "234";
  }

  /** `1234` is written `1,234`. */
  lemma ThousandsExample()
    ensures WithThousands(1234) == "1,234"
  {
    PadExample();
    assert 1234 / 1000 == 1 && 1234 % 1000 == 234;
    assert WithThousands(1) == "1";
    assert WithThousands(1234) == WithThousands(1) + "," + ZeroPad3(234);
  }

  // ---------------------------------------------------------------- prompts

  const ImageCaptionPrompt: string := "画像で一言"
  const BlankMarker: string := "[空欄]"
  const BlankInstruction: string := "[空欄]を穴埋めしてください。\n"

  /** The text of the first OCR record of `image` (`records.iloc[0]`). */
  function FirstOcrText(ocr: seq<OcrRecord>, image: int): (r: Option<string>)
    ensures r.None? <==> forall i :: 0 <= i < |ocr| ==> ocr[i].image != image
    ensures r.Some? ==> exists i :: 0 <= i < |ocr| && ocr[i].image == image && ocr[i].text == r.value
                                    && forall j :: 0 <= j < i ==> ocr[j].image != image
  {
    if |ocr| == 0 then None
    else if ocr[0].image == image then Some(ocr[0].text)
    else
      var r := FirstOcrText(ocr[1..], image);
      assert forall i :: 1 <= i < |ocr| ==> ocr[i] == ocr[1..][i - 1];
      r
  }

  /** `set_odai`: the prompt shown with a response, from its task and the OCR
      results. */
  function ResolvePrompt(task: TaskType, image: int, ocr: seq<OcrRecord>): (odai: string)
    ensures task == ImageToText ==> odai == ImageCaptionPrompt
    ensures task != ImageToText && (forall i :: 0 <= i < |ocr| ==> ocr[i].image != image) ==> odai == ""
    ensures forall i :: 0 <= i < |ocr| && ocr[i].image == image && (forall j :: 0 <= j < i ==> ocr[j].image != image) ==>
              && (task == TextToText ==> odai == ocr[i].text)
              && (task == ImageTextToText ==>
                    odai == if Contains(ocr[i].text, BlankMarker) then BlankInstruction + ocr[i].text else "")
  {
    if task == ImageToText then ImageCaptionPrompt
    else
      match FirstOcrText(ocr, image)
      case None => ""
      case Some(text) =>
        if task == ImageTextToText then
          if !Contains(text, BlankMarker) then "" else BlankInstruction + text
        else text
  }

  /** A fill-in-the-blank prompt is either empty or the instruction followed by
      an OCR text holding the blank marker. */
  lemma BlankPromptShape(image: int, ocr: seq<OcrRecord>)
    ensures var odai := ResolvePrompt(ImageTextToText, image, ocr);
            odai == "" || (StartsWith(odai, BlankInstruction) && Contains(odai[|BlankInstruction|..], BlankMarker))
  {
    var odai := ResolvePrompt(ImageTextToText, image, ocr);
    if odai != "" {
      assert odai[|BlankInstruction|..] == FirstOcrText(ocr, image).value;
    }
  }

  lemma BlankPromptExample()
    ensures ResolvePrompt(ImageTextToText, 5, [OcrRecord(5, "[空欄]foo")]) == "[空欄]を穴埋めしてください。\n[空欄]foo"
  {
    assert OccursAt("[空欄]foo", BlankMarker, 0);
  }

  // ---------------------------------------------------------------- preparation

  /** The task column: the first unknown code aborts the run. */
  function TaskColumn(raws: seq<RawRecord>): (r: Result<seq<TaskType>, Error>)
    ensures r.Ok? <==> forall i :: 0 <= i < |raws| ==> TaskOfCode(raws[i].code).Some?
    ensures r.Ok? ==> |r.value| == |raws| && forall i :: 0 <= i < |raws| ==> TaskOfCode(raws[i].code) == Some(r.value[i])
    ensures r.Err? ==> exists i :: 0 <= i < |raws| && TaskOfCode(raws[i].code).None?
                         && r.error == UnknownTaskCode(raws[i].code)
                         && forall j :: 0 <= j < i ==> TaskOfCode(raws[j].code).Some?
  {
    if |raws| == 0 then Ok([])
    else
      match TaskOfCode(raws[0].code)
      case None => Err(UnknownTaskCode(raws[0].code))
      case Some(t) =>
        var rest := TaskColumn(raws[1..]);
        assert forall i :: 1 <= i < |raws| ==> raws[i] == raws[1..][i - 1];
        match rest
        case Err(e) => Err(e)
        case Ok(ts) => Ok([t] + ts)
  }

  /** The star column: the first star that does not parse aborts the run. */
  function StarColumn(raws: seq<RawRecord>): (r: Result<seq<int>, Error>)
    ensures r.Ok? <==> forall i :: 0 <= i < |raws| ==> ParseStar(raws[i].star).Ok?
    ensures r.Ok? ==> |r.value| == |raws| && forall i :: 0 <= i < |raws| ==> ParseStar(raws[i].star) == Ok(r.value[i])
    ensures r.Err? ==> exists i :: FirstBadStar(raws, i) && r.error == MalformedStar(raws[i].star)
  {
    if |raws| == 0 then Ok([])
    else
      match ParseStar(raws[0].star)
      case Err(e) => Err(e)
      case Ok(n) =>
        var rest := StarColumn(raws[1..]);
        assert forall i :: 1 <= i < |raws| ==> raws[i] == raws[1..][i - 1];
        match rest
        case Err(e) =>
          FirstBadShift(raws, e);
          Err(e)
        case Ok(ns) => Ok([n] + ns)
  }

  /** Row `i` holds the first star column entry that does not parse. */
  ghost predicate FirstBadStar(raws: seq<RawRecord>, i: int)
  {
    && 0 <= i < |raws|
    && ParseStar(raws[i].star).Err?
    && forall j :: 0 <= j < i ==> ParseStar(raws[j].star).Ok?
  }

  /** Behind a row that parses, the first bad row of the rest is the first bad row. */
  lemma FirstBadShift(raws: seq<RawRecord>, e: Error)
    requires |raws| > 0 && ParseStar(raws[0].star).Ok?
    requires exists i :: FirstBadStar(raws[1..], i) && e == MalformedStar(raws[1..][i].star)
    ensures exists i :: FirstBadStar(raws, i) && e == MalformedStar(raws[i].star)
  {
    var i :| FirstBadStar(raws[1..], i) && e == MalformedStar(raws[1..][i].star);
    assert raws[i + 1] == raws[1..][i];
    forall j | 0 <= j < i + 1
      ensures ParseStar(raws[j].star).Ok?
    {
      if j > 0 {
        assert raws[j] == raws[1..][j - 1];
      }
    }
    assert FirstBadStar(raws, i + 1);
  }

  /** The column transforms of the preparation, applied column by column:
      task codes first, then stars, then the prompt of every record. */
  function PrepareRecords(raws: seq<RawRecord>, ocr: seq<OcrRecord>): (r: Result<seq<Record>, Error>)
    ensures r.Ok? <==> forall i :: 0 <= i < |raws| ==> TaskOfCode(raws[i].code).Some? && ParseStar(raws[i].star).Ok?
    ensures r.Ok? ==> |r.value| == |raws|
    ensures r.Ok? ==> forall i :: 0 <= i < |raws| ==>
              && r.value[i].image == raws[i].image
              && TaskOfCode(raws[i].code) == Some(r.value[i].task)
              && ParseStar(raws[i].star) == Ok(r.value[i].star)
              && r.value[i].response == raws[i].response
              && r.value[i].odai == ResolvePrompt(r.value[i].task, raws[i].image, ocr)
    ensures (exists i :: 0 <= i < |raws| && TaskOfCode(raws[i].code).None?) ==> r.Err? && r.error.UnknownTaskCode?
    ensures ((forall i :: 0 <= i < |raws| ==> TaskOfCode(raws[i].code).Some?) &&
             (exists i :: 0 <= i < |raws| && ParseStar(raws[i].star).Err?)) ==> r.Err? && r.error.MalformedStar?
  {
    match TaskColumn(raws)
    case Err(e) => Err(e)
    case Ok(tasks) =>
      match StarColumn(raws)
      case Err(e) => Err(e)
      case Ok(stars) =>
        Ok(seq(|raws|, i requires 0 <= i < |raws| =>
          Record(raws[i].image, tasks[i], stars[i], raws[i].response, ResolvePrompt(tasks[i], raws[i].image, ocr))))
  }

  /** All prepared records of one task and image carry the same prompt, so a
      sample may take its prompt from any of them. */
  lemma PreparedPromptsAgree(raws: seq<RawRecord>, ocr: seq<OcrRecord>, a: Record, b: Record)
    requires PrepareRecords(raws, ocr).Ok?
    requires a in PrepareRecords(raws, ocr).value && b in PrepareRecords(raws, ocr).value
    requires a.task == b.task && a.image == b.image
    ensures a.odai == b.odai == ResolvePrompt(a.task, a.image, ocr)
  {
  }

  // ---------------------------------------------------------------- filter

  /** The usable records: a non-empty response, a non-empty prompt and a file
      name outside the held-out list, in their original order. */
  function FilterUsable(recs: seq<Record>, heldOut: seq<string>): (kept: seq<Record>)
    ensures forall r :: r in kept <==> r in recs && r.response != "" && r.odai != "" && FileName(r.image) !in heldOut
    ensures forall r :: multiset(kept)[r] ==
              if r.response != "" && r.odai != "" && FileName(r.image) !in heldOut then multiset(recs)[r] else 0
    ensures IsSubsequence(kept, recs)
  {
    var usable := (r: Record) => r.response != "" && r.odai != "" && FileName(r.image) !in heldOut;
    FilterCounts(recs, usable);
    FilterIsSubsequence(recs, usable);
    Filter(recs, usable)
  }

  // ---------------------------------------------------------------- totals

  /** The total stars of one image within one task, as `g['star'].sum()`. */
  datatype ImageTotal = ImageTotal(image: int, total: int)

  /** The rows of one task and image, in table order (one `groupby` group). */
  function Group(recs: seq<Record>, task: TaskType, image: int): (g: seq<Record>)
    ensures forall r :: r in g <==> r in recs && r.task == task && r.image == image
    ensures forall r :: multiset(g)[r] == if r.task == task && r.image == image then multiset(recs)[r] else 0
    ensures IsSubsequence(g, recs)
  {
    var p := (r: Record) => r.task == task && r.image == image;
    FilterCounts(recs, p);
    FilterIsSubsequence(recs, p);
    Filter(recs, p)
  }

  function SumStars(rs: seq<Record>): int
  {
    if |rs| == 0 then 0 else SumStars(rs[..|rs| - 1]) + rs[|rs| - 1].star
  }

  /** Reference total: every record of the task and image adds its stars. */
  function StarTotal(recs: seq<Record>, task: TaskType, image: int): int
  {
    if |recs| == 0 then 0
    else
      var r := recs[|recs| - 1];
      StarTotal(recs[..|recs| - 1], task, image) + (if r.task == task && r.image == image then r.star else 0)
  }

  lemma {:induction false} GroupSum(recs: seq<Record>, task: TaskType, image: int)
    ensures SumStars(Group(recs, task, image)) == StarTotal(recs, task, image)
    decreases |recs|
  {
    if |recs| > 0 {
      GroupSum(recs[..|recs| - 1], task, image);
      var g := Group(recs[..|recs| - 1], task, image);
      if recs[|recs| - 1].task == task && recs[|recs| - 1].image == image {
        assert (g + [recs[|recs| - 1]])[..|g|] == g;
      }
    }
  }

  /** Some record of `task` is about `image`. */
  ghost predicate HasTaskImage(recs: seq<Record>, task: TaskType, image: int)
  {
    exists r :: r in recs && r.task == task && r.image == image
  }

  /** Some entry of `items` is about `image`. */
  ghost predicate ListsImage(items: seq<ImageTotal>, image: int)
  {
    exists i :: 0 <= i < |items| && items[i].image == image
  }

  /** The image ids of a task's records, in the ascending order `groupby` visits them. */
  function TaskImages(recs: seq<Record>, task: TaskType): (ids: seq<int>)
    ensures forall i, j :: 0 <= i < j < |ids| ==> ids[i] < ids[j]
    ensures forall x :: x in ids <==> HasTaskImage(recs, task, x)
  {
    var rs := Filter(recs, (r: Record) => r.task == task);
    var images := seq(|rs|, i requires 0 <= i < |rs| => rs[i].image);
    assert forall x :: x in images <==> exists r :: r in rs && r.image == x by {
      forall x | x in images ensures exists r :: r in rs && r.image == x {
        var i :| 0 <= i < |images| && images[i] == x;
        assert rs[i] in rs;
      }
      forall x | exists r :: r in rs && r.image == x ensures x in images {
        var r :| r in rs && r.image == x;
        var i :| 0 <= i < |rs| && rs[i] == r;
        assert images[i] == x;
      }
    }
    Ascending(images)
  }

  /** `calculate_score_sums` for one task: one entry per image id present among
      the task's records, in ascending image order, holding the sum of those
      records' stars. */
  function TaskTotals(recs: seq<Record>, task: TaskType): (items: seq<ImageTotal>)
    ensures forall i, j :: 0 <= i < j < |items| ==> items[i].image < items[j].image
    ensures forall x :: ListsImage(items, x) <==> HasTaskImage(recs, task, x)
    ensures forall i :: 0 <= i < |items| ==> items[i].total == StarTotal(recs, task, items[i].image)
  {
    var ids := TaskImages(recs, task);
    var items := seq(|ids|, i requires 0 <= i < |ids| => ImageTotal(ids[i], SumStars(Group(recs, task, ids[i]))));
    TotalsMatch(recs, task, ids, items);
    items
  }

  lemma TotalsMatch(recs: seq<Record>, task: TaskType, ids: seq<int>, items: seq<ImageTotal>)
    requires |items| == |ids|
    requires forall i :: 0 <= i < |ids| ==> items[i] == ImageTotal(ids[i], SumStars(Group(recs, task, ids[i])))
    ensures forall i :: 0 <= i < |items| ==> items[i].total == StarTotal(recs, task, items[i].image)
    ensures forall x :: ListsImage(items, x) <==> x in ids
  {
    forall i | 0 <= i < |items|
      ensures items[i].total == StarTotal(recs, task, items[i].image)
    {
      GroupSum(recs, task, ids[i]);
    }
    forall x | x in ids
      ensures ListsImage(items, x)
    {
      var i :| 0 <= i < |ids| && ids[i] == x;
      assert items[i].image == x;
    }
  }

  /** `calculate_score_sums`: the totals of every listed task. */
  function ScoreSums(recs: seq<Record>, tasks: seq<TaskType>): (sums: map<TaskType, seq<ImageTotal>>)
    ensures forall t :: t in sums <==> t in tasks
    ensures forall t :: t in sums ==> forall i, j :: 0 <= i < j < |sums[t]| ==> sums[t][i].image < sums[t][j].image
    ensures forall t, x :: t in sums ==> (ListsImage(sums[t], x) <==> HasTaskImage(recs, t, x))
    ensures forall t :: t in sums ==> forall i :: 0 <= i < |sums[t]| ==> sums[t][i].total == StarTotal(recs, t, sums[t][i].image)
  {
    map t | t in tasks :: TaskTotals(recs, t)
  }
}

=== FILE: bokete_select.dfy ===
/** `choose_train_data` and the whole preparation run: the images of each task
    are ranked by total stars and the top ones kept; each kept image's best
    responses become one numbered training sample. */
module BoketeSelect {
  import opened Wrappers
  import opened Seqs
  import opened Decimal
  import opened Sorting
  import opened Bokete

  /** At most this many responses per sample. */
  const MaxResponses: nat := 10

  /** The namespace of sample ids. */
  const OdaiPrefix: string := "ogiri-bokete-"

  datatype ResponseEntry = ResponseEntry(responseId: nat, text: string, score: int)

  /** One output line: `odai_id` (rendered from `number` by `OdaiId`),
      `file_name`, `odai`, `type`, `responses`. */
  datatype Sample = Sample(number: nat, fileName: string, odai: string, task: TaskType, responses: seq<ResponseEntry>)

  /** `f"ogiri-bokete-{odai_id}"`. */
  function OdaiId(n: nat): (id: string)
    ensures |id| > |OdaiPrefix| && id[..|OdaiPrefix|] == OdaiPrefix
    ensures ParseInt(id[|OdaiPrefix|..]) == Some(n)
    ensures CanonicalInt(id[|OdaiPrefix|..])
  {
    var id := OdaiPrefix + ShowNat(n);
    assert id[|OdaiPrefix|..] == ShowInt(n);
    ParseShowInt(n);
    id
  }

  /** Different counter values give different sample ids. */
  lemma OdaiIdInjective(a: nat, b: nat)
    requires OdaiId(a) == OdaiId(b)
    ensures a == b
  {
    assert OdaiId(a)[|OdaiPrefix|..] == ShowNat(a);
    assert OdaiId(b)[|OdaiPrefix|..] == ShowNat(b);
    ShowNatInjective(a, b);
  }

  // ---------------------------------------------------------------- images

  function ByTotalDesc(it: ImageTotal): int { -it.total }

  function ImageOf(it: ImageTotal): int { it.image }

  /** `sorted(task_scores[task].items(), key=lambda x: x[1], reverse=True)`:
      Python's sort stays stable when reversed, so equal totals keep the
      dictionary's (ascending image) order. */
  function RankImages(items: seq<ImageTotal>): (ranking: seq<ImageTotal>)
    ensures multiset(ranking) == multiset(items)
    ensures forall i, j :: 0 <= i < j < |ranking| ==> ranking[i].total >= ranking[j].total
  {
    var r := SortBy(items, ByTotalDesc);
    assert forall i, j :: 0 <= i < j < |r| ==> ByTotalDesc(r[i]) <= ByTotalDesc(r[j]);
    r
  }

  /** The image totals that survive `[:threshold]` after ranking. */
  function KeptItems(items: seq<ImageTotal>, threshold: int): (kept: seq<ImageTotal>)
    requires forall i, j :: 0 <= i < j < |items| ==> items[i].image < items[j].image
    ensures |kept| == if threshold >= 0 then Min(threshold, |items|) else Max(0, |items| + threshold)
    ensures multiset(kept) <= multiset(items)
    ensures forall x, y :: x in kept && y in multiset(items) - multiset(kept) ==>
              x.total > y.total || (x.total == y.total && x.image < y.image)
  {
    var ranking := RankImages(items);
    var kept := SliceTo(ranking, threshold);
    assert |kept| == if threshold >= 0 then Min(threshold, |items|) else Max(0, |items| + threshold);
    RankedPrefix(items, kept);
    kept
  }

  /** A prefix of the ranking is drawn from the items and beats the items left out. */
  lemma RankedPrefix(items: seq<ImageTotal>, kept: seq<ImageTotal>)
    requires forall i, j :: 0 <= i < j < |items| ==> items[i].image < items[j].image
    requires |kept| <= |items| && kept == RankImages(items)[..|kept|]
    ensures multiset(kept) <= multiset(items)
    ensures forall x, y :: x in kept && y in multiset(items) - multiset(kept) ==>
              x.total > y.total || (x.total == y.total && x.image < y.image)
  {
    RankingIsStable(items);
    PrefixBeatsRest(RankImages(items), |kept|);
  }

  /** Ties in the ranking keep ascending image order. */
  lemma RankingIsStable(items: seq<ImageTotal>)
    requires forall i, j :: 0 <= i < j < |items| ==> items[i].image < items[j].image
    ensures LexSorted(RankImages(items), ByTotalDesc, ImageOf)
  {
    assert StrictlyIncreasing(items, ImageOf);
    SortByIsStable(items, ByTotalDesc, ImageOf);
  }

  /** In a ranking sorted by total and then image, every entry of a prefix
      beats every entry after it. */
  lemma PrefixBeatsRest(ranking: seq<ImageTotal>, k: nat)
    requires k <= |ranking|
    requires LexSorted(ranking, ByTotalDesc, ImageOf)
    ensures multiset(ranking[..k]) <= multiset(ranking)
    ensures forall x, y :: x in ranking[..k] && y in multiset(ranking) - multiset(ranking[..k]) ==>
              x.total > y.total || (x.total == y.total && x.image < y.image)
  {
    MultisetRest(ranking, k);
    PrefixBeatsSuffix(ranking, k);
    forall x, y | x in ranking[..k] && y in multiset(ranking) - multiset(ranking[..k])
      ensures x.total > y.total || (x.total == y.total && x.image < y.image)
    {
      assert y in ranking[k..];
    }
  }

  lemma PrefixBeatsSuffix(ranking: seq<ImageTotal>, k: nat)
    requires k <= |ranking|
    requires LexSorted(ranking, ByTotalDesc, ImageOf)
    ensures forall x, y :: x in ranking[..k] && y in ranking[k..] ==>
              x.total > y.total || (x.total == y.total && x.image < y.image)
  {
    forall x, y | x in ranking[..k] && y in ranking[k..]
      ensures x.total > y.total || (x.total == y.total && x.image < y.image)
    {
      var p :| 0 <= p < k && ranking[..k][p] == x;
      var q :| 0 <= q < |ranking| - k && ranking[k..][q] == y;
      assert LexBefore(ranking[p], ranking[k + q], ByTotalDesc, ImageOf);
    }
  }

  /** The image ids kept for a task: `[image_id for image_id, sum in ranking[:threshold]]`. */
  function KeptImages(items: seq<ImageTotal>, threshold: int): (ids: seq<int>)
    requires forall i, j :: 0 <= i < j < |items| ==> items[i].image < items[j].image
    ensures |ids| == |KeptItems(items, threshold)|
    ensures forall x :: x in ids <==> ListsImage(KeptItems(items, threshold), x)
  {
    var kept := KeptItems(items, threshold);
    ImagesOf(kept)
  }

  /** The image ids of some totals, in the same order. */
  function ImagesOf(items: seq<ImageTotal>): (ids: seq<int>)
    ensures |ids| == |items|
    ensures forall x :: x in ids <==> ListsImage(items, x)
  {
    var ids := seq(|items|, i requires 0 <= i < |items| => items[i].image);
    assert forall i :: 0 <= i < |items| ==> ids[i] == items[i].image;
    ids
  }

  // ---------------------------------------------------------------- responses

  function ByStarDesc(r: Record): int { -r.star }

  /** `g.sort_values(['star'], ascending=False)`: the group, most stars first.
      The model sorts stably; pandas' default sort need not, so nothing here
      depends on the order of equal stars. */
  function RankResponses(group: seq<Record>): (sorted: seq<Record>)
    ensures multiset(sorted) == multiset(group)
    ensures |sorted| == |group|
    ensures forall i, j :: 0 <= i < j < |sorted| ==> sorted[i].star >= sorted[j].star
  {
    var r := SortBy(group, ByStarDesc);
    assert forall i, j :: 0 <= i < j < |r| ==> ByStarDesc(r[i]) <= ByStarDesc(r[j]);
    r
  }

  /** The responses the numbering loop takes before it breaks: the ten best of
      the group, or all of them. */
  function TopResponses(group: seq<Record>): (top: seq<Record>)
    ensures |top| == Min(MaxResponses, |group|)
    ensures multiset(top) <= multiset(group)
    ensures forall i, j :: 0 <= i < j < |top| ==> top[i].star >= top[j].star
    ensures forall x, y :: x in top && y in multiset(group) - multiset(top) ==> x.star >= y.star
  {
    var sorted := RankResponses(group);
    var k := Min(MaxResponses, |sorted|);
    MultisetRest(sorted, k);
    StarPrefixBeatsRest(sorted, k);
    sorted[..k]
  }

  /** In a list sorted by descending stars, a prefix has no fewer stars than
      anything after it. */
  lemma StarPrefixBeatsRest(sorted: seq<Record>, k: nat)
    requires k <= |sorted|
    requires forall i, j :: 0 <= i < j < |sorted| ==> sorted[i].star >= sorted[j].star
    ensures forall x, y :: x in sorted[..k] && y in sorted[k..] ==> x.star >= y.star
  {
    forall x, y | x in sorted[..k] && y in sorted[k..]
      ensures x.star >= y.star
    {
      var p :| 0 <= p < k && sorted[..k][p] == x;
      var q :| 0 <= q < |sorted| - k && sorted[k..][q] == y;
      assert sorted[p] == x && sorted[k + q] == y;
    }
  }

  /** `{"response_id": i, "text": ..., "score": ...}` for i = 1, 2, ... */
  function Number(top: seq<Record>): (rs: seq<ResponseEntry>)
    ensures |rs| == |top|
    ensures forall i :: 0 <= i < |rs| ==> rs[i] == ResponseEntry(i + 1, top[i].response, top[i].star)
  {
    seq(|top|, i requires 0 <= i < |top| => ResponseEntry(i + 1, top[i].response, top[i].star))
  }

  /** The responses of a sample: numbered 1..n, at most ten, best first. */
  ghost predicate WellFormedResponses(rs: seq<ResponseEntry>)
  {
    && 1 <= |rs| <= MaxResponses
    && (forall i :: 0 <= i < |rs| ==> rs[i].responseId == i + 1)
    && (forall i, j :: 0 <= i < j < |rs| ==> rs[i].score >= rs[j].score)
  }

  /** Some row of `group` gave this response text and score. */
  ghost predicate RespondedIn(group: seq<Record>, e: ResponseEntry)
  {
    exists r :: r in group && r.response == e.text && r.star == e.score
  }

  /** Some row of `group` gave the sample its file name and prompt. */
  ghost predicate LabelledBy(group: seq<Record>, s: Sample)
  {
    exists r :: r in group && s.fileName == FileName(r.image) && s.odai == r.odai
  }

  /** The sample's responses are the best rows of `group`, in rank order: the
      same number, and entry `i` carrying the text and stars of row `i`. */
  ghost predicate RespondsWith(s: Sample, group: seq<Record>)
  {
    var top := TopResponses(group);
    && |s.responses| == |top|
    && forall i :: 0 <= i < |top| ==> s.responses[i].text == top[i].response && s.responses[i].score == top[i].star
  }

  /** The sample built from one group under counter value `n`. Its file name and
      prompt come from the row the response loop stopped at (`r` after the loop),
      which is the eleventh best row or the last one. */
  function BuildSample(group: seq<Record>, task: TaskType, n: nat): (s: Option<Sample>)
    ensures s.Some? <==> |group| > 0
    ensures s.Some? ==> s.value.number == n && s.value.task == task
    ensures s.Some? ==> WellFormedResponses(s.value.responses)
    ensures s.Some? ==> |s.value.responses| == Min(MaxResponses, |group|)
    ensures s.Some? ==> forall i :: 0 <= i < |s.value.responses| ==> RespondedIn(group, s.value.responses[i])
    ensures s.Some? ==> LabelledBy(group, s.value)
  {
    var sorted := RankResponses(group);
    var top := TopResponses(group);
    var responses := Number(top);
    if |responses| > 0 then
      var last := sorted[Min(MaxResponses, |sorted| - 1)];
      var sample := Sample(n, FileName(last.image), last.odai, task, responses);
      RowsFromGroup(group, sorted, top, Min(MaxResponses, |sorted| - 1));
      NumberedFromGroup(group, top);
      Some(sample)
    else
      None
  }

  /** Numbering the best rows gives well-formed responses, each from the group. */
  lemma NumberedFromGroup(group: seq<Record>, top: seq<Record>)
    requires 1 <= |top| <= MaxResponses
    requires forall i, j :: 0 <= i < j < |top| ==> top[i].star >= top[j].star
    requires forall i :: 0 <= i < |top| ==> top[i] in group
    ensures WellFormedResponses(Number(top))
    ensures forall i :: 0 <= i < |top| ==> RespondedIn(group, Number(top)[i])
  {
    var rs := Number(top);
    forall i | 0 <= i < |top| ensures RespondedIn(group, rs[i]) {
      assert top[i] in group;
    }
  }

  /** The rows the sample is made from are rows of the group. */
  lemma RowsFromGroup(group: seq<Record>, sorted: seq<Record>, top: seq<Record>, k: nat)
    requires multiset(sorted) == multiset(group) && k < |sorted|
    requires multiset(top) <= multiset(group)
    ensures sorted[k] in group
    ensures forall i :: 0 <= i < |top| ==> top[i] in group
  {
    assert sorted[k] in multiset(sorted);
    forall i | 0 <= i < |top| ensures top[i] in group {
      assert top[i] in multiset(top);
    }
  }

  /** The responses of a sample are the best rows of its group, numbered in
      rank order. */
  lemma SampleResponsesAreTop(group: seq<Record>, task: TaskType, n: nat)
    ensures var s := BuildSample(group, task, n);
            s.Some? ==> RespondsWith(s.value, group)
  {
    if |group| > 0 {
      var top := TopResponses(group);
      var rs := BuildSample(group, task, n).value.responses;
      assert rs == Number(top);
      forall i | 0 <= i < |rs| ensures rs[i].text == top[i].response && rs[i].score == top[i].star {
        assert rs[i] == Number(top)[i];
      }
    }
  }

  // ---------------------------------------------------------------- tasks

  /** Some row of `recs` of the sample's task gave it its file name and prompt. */
  ghost predicate TaskLabelledBy(recs: seq<Record>, s: Sample)
  {
    exists r :: r in recs && r.task == s.task && s.fileName == FileName(r.image) && s.odai == r.odai
  }

  /** A sample labelled by a row of the group of `image` is labelled by a row of
      the task, and is named after `image`. */
  lemma GroupLabel(recs: seq<Record>, task: TaskType, image: int, s: Sample)
    requires s.task == task && LabelledBy(Group(recs, task, image), s)
    ensures TaskLabelledBy(recs, s) && s.fileName == FileName(image)
  {
    var r :| r in Group(recs, task, image) && s.fileName == FileName(r.image) && s.odai == r.odai;
  }

  /** The candidate sample of each group in `ids`: the counter is advanced for
      every group, so the group at position `k` gets number `counter + k + 1`. */
  function Built(recs: seq<Record>, task: TaskType, ids: seq<int>, counter: nat): (built: seq<Option<Sample>>)
    ensures |built| == |ids|
  {
    seq(|ids|, k requires 0 <= k < |ids| => BuildSample(Group(recs, task, ids[k]), task, counter + k + 1))
  }

  /** The inner loop of `choose_train_data` over the groups `ids`: a sample is
      emitted for each group that has responses, and the counter ends advanced
      once per group. */
  function EmitGroups(recs: seq<Record>, task: TaskType, ids: seq<int>, counter: nat): (out: (seq<Sample>, nat))
    ensures out.1 == counter + |ids|
    ensures |out.0| <= |ids|
    ensures forall s :: s in out.0 ==> s.task == task && WellFormedResponses(s.responses) && TaskLabelledBy(recs, s)
    ensures forall s :: s in out.0 ==> AnsweredWithin(recs, ids, s)
    ensures forall k, l :: 0 <= k < l < |out.0| ==> out.0[k].number < out.0[l].number
    ensures forall s :: s in out.0 ==> counter < s.number <= counter + |ids| && FromVisited(recs, task, ids, counter, s)
    ensures forall k :: 0 <= k < |ids| && |Group(recs, task, ids[k])| > 0 ==>
              exists s :: s in out.0 && s.number == counter + k + 1
  {
    var built := Built(recs, task, ids, counter);
    BuiltSamples(recs, task, ids, counter);
    EmitShape(recs, task, ids, counter);
    (Somes(built), counter + |ids|)
  }

  /** The sample numbered `n` comes from the group visited at position
      `n - counter - 1`: that group has rows, names the sample, and its best rows
      are the sample's responses. */
  ghost predicate FromVisited(recs: seq<Record>, task: TaskType, ids: seq<int>, counter: nat, s: Sample)
    requires counter < s.number <= counter + |ids|
  {
    var image := ids[s.number - counter - 1];
    && |Group(recs, task, image)| > 0
    && s.fileName == FileName(image)
    && RespondsWith(s, Group(recs, task, image))
  }

  /** The present candidates come out in visiting order, each from the group its
      number names, and every group with rows has its candidate among them. */
  lemma EmitShape(recs: seq<Record>, task: TaskType, ids: seq<int>, counter: nat)
    ensures var out := Somes(Built(recs, task, ids, counter));
            && (forall k, l :: 0 <= k < l < |out| ==> out[k].number < out[l].number)
            && (forall s :: s in out ==> counter < s.number <= counter + |ids| && FromVisited(recs, task, ids, counter, s))
            && (forall k :: 0 <= k < |ids| && |Group(recs, task, ids[k])| > 0 ==>
                  exists s :: s in out && s.number == counter + k + 1)
  {
    EmitOrder(recs, task, ids, counter);
    EmitFromVisited(recs, task, ids, counter);
    EmitCovers(recs, task, ids, counter);
  }

  /** The present candidates come out with increasing numbers. */
  lemma EmitOrder(recs: seq<Record>, task: TaskType, ids: seq<int>, counter: nat)
    ensures var out := Somes(Built(recs, task, ids, counter));
            forall k, l :: 0 <= k < l < |out| ==> out[k].number < out[l].number
  {
    var built := Built(recs, task, ids, counter);
    forall i | 0 <= i < |built| && built[i].Some?
      ensures built[i].value.number == counter + 1 + i
    {
      BuiltAt(recs, task, ids, counter, i, built[i].value);
    }
    SomesKeyed(built, (s: Sample) => s.number, counter + 1);
  }

  /** Each present candidate comes from the group its number names. */
  lemma EmitFromVisited(recs: seq<Record>, task: TaskType, ids: seq<int>, counter: nat)
    ensures forall s :: s in Somes(Built(recs, task, ids, counter)) ==>
              counter < s.number <= counter + |ids| && FromVisited(recs, task, ids, counter, s)
  {
    var built := Built(recs, task, ids, counter);
    forall s: Sample | s in Somes(built)
      ensures counter < s.number <= counter + |ids| && FromVisited(recs, task, ids, counter, s)
    {
      assert Some(s) in built;
      var k :| 0 <= k < |built| && built[k] == Some(s);
      VisitedAt(recs, task, ids, counter, k, s);
    }
  }

  /** The candidate at position `k` comes from the group its number names. */
  lemma VisitedAt(recs: seq<Record>, task: TaskType, ids: seq<int>, counter: nat, k: nat, s: Sample)
    requires k < |ids| && Built(recs, task, ids, counter)[k] == Some(s)
    ensures counter < s.number <= counter + |ids| && FromVisited(recs, task, ids, counter, s)
  {
    var group := Group(recs, task, ids[k]);
    assert BuildSample(group, task, counter + k + 1) == Some(s);
    BuiltAt(recs, task, ids, counter, k, s);
    assert |group| > 0 && s.fileName == FileName(ids[k]) && RespondsWith(s, group);
    assert ids[s.number - counter - 1] == ids[k];
  }

  /** Every group with rows has its candidate among the present ones. */
  lemma EmitCovers(recs: seq<Record>, task: TaskType, ids: seq<int>, counter: nat)
    ensures forall k :: 0 <= k < |ids| && |Group(recs, task, ids[k])| > 0 ==>
              exists s :: s in Somes(Built(recs, task, ids, counter)) && s.number == counter + k + 1
  {
    var built := Built(recs, task, ids, counter);
    forall k | 0 <= k < |ids| && |Group(recs, task, ids[k])| > 0
      ensures exists s: Sample :: s in Somes(built) && s.number == counter + k + 1
    {
      var s := built[k].value;
      BuiltAt(recs, task, ids, counter, k, s);
      assert Some(s) in built;
    }
  }

  /** What the candidate at position `k` is: present exactly when its group has
      rows, and then numbered, well formed and labelled by a row of its task. */
  lemma BuiltAt(recs: seq<Record>, task: TaskType, ids: seq<int>, counter: nat, k: nat, s: Sample)
    requires k < |ids| && Built(recs, task, ids, counter)[k] == Some(s)
    ensures s.number == counter + k + 1 && s.task == task && WellFormedResponses(s.responses)
    ensures TaskLabelledBy(recs, s) && s.fileName == FileName(ids[k])
    ensures RespondsWith(s, Group(recs, task, ids[k]))
  {
    assert LabelledBy(Group(recs, task, ids[k]), s);
    GroupLabel(recs, task, ids[k], s);
    SampleResponsesAreTop(Group(recs, task, ids[k]), task, counter + k + 1);
  }

  /** Some image of `images` names the sample, and the sample's responses are the
      best rows of that image's group among `recs`. */
  ghost predicate AnsweredWithin(recs: seq<Record>, images: seq<int>, s: Sample)
  {
    exists image :: image in images && s.fileName == FileName(image) && RespondsWith(s, Group(recs, s.task, image))
  }

  /** Some image names the sample, and the sample's responses are the best rows
      of that image's group among `recs`. */
  ghost predicate Answered(recs: seq<Record>, s: Sample)
  {
    exists image :: s.fileName == FileName(image) && RespondsWith(s, Group(recs, s.task, image))
  }

  /** Every candidate sample is well formed and labelled by a row of its task. */
  lemma BuiltSamples(recs: seq<Record>, task: TaskType, ids: seq<int>, counter: nat)
    ensures forall s :: Some(s) in Built(recs, task, ids, counter) ==>
              s.task == task && WellFormedResponses(s.responses) && TaskLabelledBy(recs, s) && AnsweredWithin(recs, ids, s)
  {
    var built := Built(recs, task, ids, counter);
    forall s: Sample | Some(s) in built
      ensures s.task == task && WellFormedResponses(s.responses) && TaskLabelledBy(recs, s) && AnsweredWithin(recs, ids, s)
    {
      var k :| 0 <= k < |built| && built[k] == Some(s);
      BuiltAt(recs, task, ids, counter, k, s);
      assert ids[k] in ids;
    }
  }

  /** The samples carry the consecutive numbers `start`, `start + 1`, ... */
  ghost predicate NumberedFrom(out: seq<Sample>, start: nat)
  {
    forall k :: 0 <= k < |out| ==> out[k].number == start + k
  }

  /** Consecutively numbered samples have pairwise different `odai_id`s. */
  lemma NumberedIdsDistinct(out: seq<Sample>, start: nat)
    requires NumberedFrom(out, start)
    ensures forall i, j :: 0 <= i < j < |out| ==> OdaiId(out[i].number) != OdaiId(out[j].number)
  {
    forall i, j | 0 <= i < j < |out|
      ensures OdaiId(out[i].number) != OdaiId(out[j].number)
    {
      if OdaiId(out[i].number) == OdaiId(out[j].number) {
        OdaiIdInjective(out[i].number, out[j].number);
      }
    }
  }

  /** The samples are named after `ids`, one for one. */
  ghost predicate NamedAfter(out: seq<Sample>, ids: seq<int>)
  {
    |out| == |ids| && forall k :: 0 <= k < |out| ==> out[k].fileName == FileName(ids[k])
  }

  /** When every group visited is non-empty, each one yields a sample, named
      after its image and numbered by the counter in visiting order. */
  lemma EmitAllGroups(recs: seq<Record>, task: TaskType, ids: seq<int>, counter: nat)
    requires forall k :: 0 <= k < |ids| ==> HasTaskImage(recs, task, ids[k])
    ensures NumberedFrom(EmitGroups(recs, task, ids, counter).0, counter + 1)
    ensures NamedAfter(EmitGroups(recs, task, ids, counter).0, ids)
  {
    var built := Built(recs, task, ids, counter);
    forall k | 0 <= k < |ids|
      ensures built[k].Some? && built[k].value.number == counter + k + 1 && built[k].value.fileName == FileName(ids[k])
    {
      BuiltPresent(recs, task, ids, counter, k);
    }
    SomesAll(built);
  }

  /** The candidate of a group with rows is present, numbered by its position and
      named after its image. */
  lemma BuiltPresent(recs: seq<Record>, task: TaskType, ids: seq<int>, counter: nat, k: nat)
    requires k < |ids| && HasTaskImage(recs, task, ids[k])
    ensures var b := Built(recs, task, ids, counter)[k];
            b.Some? && b.value.number == counter + k + 1 && b.value.fileName == FileName(ids[k])
  {
    GroupOfListedImage(recs, task, ids[k]);
    var b := Built(recs, task, ids, counter)[k];
    assert b.Some?;
    BuiltAt(recs, task, ids, counter, k, b.value);
  }

  /** An image that has records of the task has a non-empty group. */
  lemma GroupOfListedImage(recs: seq<Record>, task: TaskType, image: int)
    ensures HasTaskImage(recs, task, image) ==> |Group(recs, task, image)| > 0
  {
    if HasTaskImage(recs, task, image) {
      var r :| r in recs && r.task == task && r.image == image;
      assert r in Group(recs, task, image);
    }
  }

  /** Some row of `recs` of the sample's task, about one of `images`, gave the
      sample its file name and prompt. */
  ghost predicate LabelledWithin(recs: seq<Record>, images: seq<int>, s: Sample)
  {
    exists r :: r in recs && r.task == s.task && r.image in images && s.fileName == FileName(r.image) && s.odai == r.odai
  }

  // ---------------------------------------------------------------- plan

  /** A sample to be made: the task and the image it is made for. */
  datatype Slot = Slot(task: TaskType, image: int)

  /** The slots of one task, one per image of `ids`, in the same order. */
  function TaskPlan(task: TaskType, ids: seq<int>): (plan: seq<Slot>)
    ensures |plan| == |ids|
    ensures forall k :: 0 <= k < |plan| ==> plan[k].task == task && plan[k].image == ids[k]
  {
    seq(|ids|, k requires 0 <= k < |ids| => Slot(task, ids[k]))
  }

  /** The samples fill the slots one for one: same task, named after the slot's image. */
  ghost predicate Follows(out: seq<Sample>, plan: seq<Slot>)
  {
    |out| == |plan| && forall k :: 0 <= k < |out| ==> out[k].task == plan[k].task && out[k].fileName == FileName(plan[k].image)
  }

  /** Every image with a total for `task` has rows of that task in `recs`. */
  ghost predicate TotalsBackedBy(recs: seq<Record>, task: TaskType, items: seq<ImageTotal>)
  {
    forall x :: ListsImage(items, x) ==> HasTaskImage(recs, task, x)
  }

  /** The totals of every task are backed by rows of `recs`; true of totals
      computed from `recs` itself. */
  ghost predicate AllTotalsBacked(recs: seq<Record>, sums: map<TaskType, seq<ImageTotal>>)
  {
    forall t :: t in sums ==> TotalsBackedBy(recs, t, sums[t])
  }

  /** The training set the selection is meant to yield, independent of how the
      groups are built: task after task, the kept images of the task in ascending
      image order. A task without a threshold or totals contributes nothing. */
  ghost function Schedule(sums: map<TaskType, seq<ImageTotal>>, thresholds: map<TaskType, int>, tasks: seq<TaskType>)
    : seq<Slot>
    requires forall t :: t in sums ==> forall i, j :: 0 <= i < j < |sums[t]| ==> sums[t][i].image < sums[t][j].image
    decreases |tasks|
  {
    if |tasks| == 0 then []
    else
      var t := tasks[0];
      var here := if t in sums && t in thresholds then TaskPlan(t, Ascending(KeptImages(sums[t], thresholds[t]))) else [];
      here + Schedule(sums, thresholds, tasks[1..])
  }

  /** Runs that follow their plans concatenate into a run that follows the joined plan. */
  lemma FollowsAppend(a: seq<Sample>, b: seq<Sample>, p: seq<Slot>, q: seq<Slot>)
    requires Follows(a, p) && Follows(b, q)
    ensures Follows(a + b, p + q)
  {
    forall k | |a| <= k < |a + b|
      ensures (a + b)[k].task == (p + q)[k].task && (a + b)[k].fileName == FileName((p + q)[k].image)
    {
      assert (a + b)[k] == b[k - |a|] && (p + q)[k] == q[k - |a|];
    }
  }

  /** One task of `choose_train_data`: keep the top `threshold` images, then
      emit the groups of the kept images in ascending image order. */
  function SelectTask(recs: seq<Record>, task: TaskType, items: seq<ImageTotal>, threshold: int, counter: nat)
    : (out: (seq<Sample>, nat))
    requires forall i, j :: 0 <= i < j < |items| ==> items[i].image < items[j].image
    ensures out.1 == counter + |out.0|
    ensures |out.0| <= |KeptImages(items, threshold)|
    ensures NumberedFrom(out.0, counter + 1)
    ensures forall s :: s in out.0 ==> s.task == task && WellFormedResponses(s.responses)
    ensures forall s :: s in out.0 ==> LabelledWithin(recs, KeptImages(items, threshold), s)
    ensures TotalsBackedBy(recs, task, items) ==> Follows(out.0, TaskPlan(task, Ascending(KeptImages(items, threshold))))
    ensures forall s :: s in out.0 ==> AnsweredWithin(recs, KeptImages(items, threshold), s)
  {
    var kept := KeptImages(items, threshold);
    var inKept := (r: Record) => r.image in kept;
    var candidates := Filter(recs, inKept);
    var ids := TaskImages(candidates, task);
    var out := EmitGroups(candidates, task, ids, counter);
    KeptCandidates(recs, kept, candidates, task, ids, out.0);
    EmitAllGroups(candidates, task, ids, counter);
    DistinctWithinLength(ids, kept);
    KeptInOrder(recs, task, items, threshold, candidates, ids);
    TaskPlanFollowed(out.0, task, ids);
    AnsweredKept(recs, kept, inKept, candidates, task, ids, out.0);
    out
  }

  /** The samples built from the kept rows answer with the best rows of their
      image's group among all rows, since a kept image keeps its whole group. */
  lemma AnsweredKept(recs: seq<Record>, kept: seq<int>, inKept: Record -> bool, candidates: seq<Record>,
                     task: TaskType, ids: seq<int>, out: seq<Sample>)
    requires forall r :: inKept(r) <==> r.image in kept
    requires candidates == Filter(recs, inKept)
    requires forall x :: x in ids ==> x in kept
    requires forall s :: s in out ==> AnsweredWithin(candidates, ids, s)
    ensures forall s :: s in out ==> AnsweredWithin(recs, kept, s)
  {
    forall s | s in out ensures AnsweredWithin(recs, kept, s) {
      var image :| image in ids && s.fileName == FileName(image) && RespondsWith(s, Group(candidates, s.task, image));
      GroupWithinKept(recs, kept, inKept, s.task, image);
    }
  }

  /** The group of a kept image is the same among the kept rows as among all rows. */
  lemma GroupWithinKept(recs: seq<Record>, kept: seq<int>, inKept: Record -> bool, task: TaskType, image: int)
    requires forall r :: inKept(r) <==> r.image in kept
    requires image in kept
    ensures Group(Filter(recs, inKept), task, image) == Group(recs, task, image)
  {
    var p := (r: Record) => r.task == task && r.image == image;
    FilterNarrow(recs, inKept, p);
  }

  /** When every image with a total has rows of the task, the groups visited
      are exactly those of the kept images, in ascending image order. */
  lemma KeptInOrder(recs: seq<Record>, task: TaskType, items: seq<ImageTotal>, threshold: int,
                    candidates: seq<Record>, ids: seq<int>)
    requires forall i, j :: 0 <= i < j < |items| ==> items[i].image < items[j].image
    requires forall r :: r in candidates <==> r in recs && r.image in KeptImages(items, threshold)
    requires forall i, j :: 0 <= i < j < |ids| ==> ids[i] < ids[j]
    requires forall x :: x in ids <==> HasTaskImage(candidates, task, x)
    ensures TotalsBackedBy(recs, task, items) ==> ids == Ascending(KeptImages(items, threshold))
  {
    var kept := KeptImages(items, threshold);
    if TotalsBackedBy(recs, task, items) {
      var asc := Ascending(kept);
      forall x ensures x in ids <==> x in asc {
        if x in asc {
          KeptIsListed(items, threshold, x);
          var r :| r in recs && r.task == task && r.image == x;
          assert r in candidates;
        }
        if x in ids {
          var r :| r in candidates && r.task == task && r.image == x;
        }
      }
      StrictlySameMembers(ids, asc);
    }
  }

  /** A kept image is one of the images with a total. */
  lemma KeptIsListed(items: seq<ImageTotal>, threshold: int, x: int)
    requires forall i, j :: 0 <= i < j < |items| ==> items[i].image < items[j].image
    requires x in KeptImages(items, threshold)
    ensures ListsImage(items, x)
  {
    var keptItems := KeptItems(items, threshold);
    assert ListsImage(keptItems, x);
    var i :| 0 <= i < |keptItems| && keptItems[i].image == x;
    assert keptItems[i] in multiset(items);
    var j :| 0 <= j < |items| && items[j] == keptItems[i];
  }

  /** Samples named after `ids`, all of one task, follow that task's plan. */
  lemma TaskPlanFollowed(out: seq<Sample>, task: TaskType, ids: seq<int>)
    requires NamedAfter(out, ids)
    requires forall s :: s in out ==> s.task == task
    ensures Follows(out, TaskPlan(task, ids))
  {
    forall k | 0 <= k < |out| ensures out[k].task == task {
      assert out[k] in out;
    }
  }

  /** The groups visited are those of kept images, and every sample is labelled
      by a row about a kept image. */
  lemma KeptCandidates(recs: seq<Record>, kept: seq<int>, candidates: seq<Record>, task: TaskType,
                       ids: seq<int>, out: seq<Sample>)
    requires forall r :: r in candidates <==> r in recs && r.image in kept
    requires forall x :: x in ids <==> HasTaskImage(candidates, task, x)
    requires forall s :: s in out ==> TaskLabelledBy(candidates, s)
    ensures forall k :: 0 <= k < |ids| ==> HasTaskImage(candidates, task, ids[k])
    ensures forall x :: x in ids ==> x in kept
    ensures forall s :: s in out ==> LabelledWithin(recs, kept, s)
  {
    forall x | x in ids ensures x in kept {
      var r :| r in candidates && r.task == task && r.image == x;
    }
    forall s | s in out ensures LabelledWithin(recs, kept, s) {
      var r :| r in candidates && r.task == s.task && s.fileName == FileName(r.image) && s.odai == r.odai;
    }
  }

  /** Numbered runs concatenate into one numbered run. */
  lemma NumberedAppend(a: seq<Sample>, b: seq<Sample>, start: nat)
    requires NumberedFrom(a, start) && NumberedFrom(b, start + |a|)
    ensures NumberedFrom(a + b, start)
  {
    forall k | |a| <= k < |a + b| ensures (a + b)[k].number == start + k {
      assert (a + b)[k] == b[k - |a|];
    }
  }

  /** A strictly increasing sequence whose elements all occur in `b` is no longer than `b`. */
  lemma {:induction false} DistinctWithinLength(a: seq<int>, b: seq<int>)
    requires forall i, j :: 0 <= i < j < |a| ==> a[i] < a[j]
    requires forall x :: x in a ==> x in b
    ensures |a| <= |b|
    decreases |a|
  {
    if |a| > 0 {
      var x := a[|a| - 1];
      assert x in a;
      var i :| 0 <= i < |b| && b[i] == x;
      var b' := b[..i] + b[i + 1..];
      var a' := a[..|a| - 1];
      forall y | y in a'
        ensures y in b'
      {
        var k :| 0 <= k < |a'| && a'[k] == y;
        assert y < x;
        assert y in a;
        var j :| 0 <= j < |b| && b[j] == y;
        if j < i {
          assert b'[j] == y;
        } else {
          assert b'[j - 1] == y;
        }
      }
      DistinctWithinLength(a', b');
    }
  }

  /** The position of the first task of `tasks` that has no threshold or no
      score totals, or `|tasks|` when every task has both. */
  function FirstUnconfigured(tasks: seq<TaskType>, thresholds: map<TaskType, int>,
                             sums: map<TaskType, seq<ImageTotal>>): (k: nat)
    ensures k <= |tasks|
    ensures k < |tasks| ==> tasks[k] !in thresholds || tasks[k] !in sums
    decreases |tasks|
  {
    if |tasks| == 0 || tasks[0] !in thresholds || tasks[0] !in sums then 0
    else
      var k := 1 + FirstUnconfigured(tasks[1..], thresholds, sums);
      assert k < |tasks| ==> tasks[k] == tasks[1..][k - 1];
      k
  }

  /** Every task before `FirstUnconfigured` has a threshold and totals, so the
      task it names is the first one that lacks either. */
  lemma {:induction false} FirstUnconfiguredIsFirst(tasks: seq<TaskType>, thresholds: map<TaskType, int>,
                                                    sums: map<TaskType, seq<ImageTotal>>)
    ensures forall j :: 0 <= j < FirstUnconfigured(tasks, thresholds, sums) ==> tasks[j] in thresholds && tasks[j] in sums
    decreases |tasks|
  {
    if |tasks| > 0 && tasks[0] in thresholds && tasks[0] in sums {
      FirstUnconfiguredIsFirst(tasks[1..], thresholds, sums);
      assert forall j :: 1 <= j < |tasks| ==> tasks[j] == tasks[1..][j - 1];
    }
  }

  /** The `KeyError` of a task that cannot be selected: the threshold is looked up
      first, the totals second. */
  function ConfigError(task: TaskType, thresholds: map<TaskType, int>): Error
  {
    if task !in thresholds then MissingThreshold(task) else MissingScores(task)
  }

  /** What a successful run over `tasks` promises: every task has a threshold and
      totals; the samples are numbered without gaps from `counter + 1`, well
      formed, of a listed task, labelled by a row of their task and answered by
      the best rows of their task and image; and, when the totals are backed by
      the rows, they fill the `Schedule` slot for slot. */
  ghost predicate SelectedFrom(recs: seq<Record>, sums: map<TaskType, seq<ImageTotal>>, thresholds: map<TaskType, int>,
                               tasks: seq<TaskType>, counter: nat, out: seq<Sample>)
    requires forall t :: t in sums ==> forall i, j :: 0 <= i < j < |sums[t]| ==> sums[t][i].image < sums[t][j].image
  {
    && (forall t :: t in tasks ==> t in thresholds && t in sums)
    && NumberedFrom(out, counter + 1)
    && (forall s :: s in out ==> s.task in tasks && WellFormedResponses(s.responses) && TaskLabelledBy(recs, s))
    && (AllTotalsBacked(recs, sums) ==> Follows(out, Schedule(sums, thresholds, tasks)))
    && (forall s :: s in out ==> Answered(recs, s))
  }

  /** The outer loop of `choose_train_data` over `tasks`, threading the run-wide
      counter. A task without a configured threshold, or without score totals,
      aborts the run. */
  function SelectFrom(recs: seq<Record>, sums: map<TaskType, seq<ImageTotal>>, thresholds: map<TaskType, int>,
                      tasks: seq<TaskType>, counter: nat): (r: Result<seq<Sample>, Error>)
    requires forall t :: t in sums ==> forall i, j :: 0 <= i < j < |sums[t]| ==> sums[t][i].image < sums[t][j].image
    ensures r.Ok? ==> SelectedFrom(recs, sums, thresholds, tasks, counter, r.value)
    ensures r.Err? ==> exists t :: t in tasks && ((t !in thresholds && r.error == MissingThreshold(t)) ||
                                                 (t in thresholds && t !in sums && r.error == MissingScores(t)))
    decreases |tasks|
  {
    if |tasks| == 0 then Ok([])
    else
      var task := tasks[0];
      if task !in thresholds || task !in sums then
        Err(ConfigError(task, thresholds))
      else
        var kept := KeptImages(sums[task], thresholds[task]);
        var out := SelectTask(recs, task, sums[task], thresholds[task], counter);
        var rest := SelectFrom(recs, sums, thresholds, tasks[1..], out.1);
        match rest
        case Err(e) =>
          assert forall t :: t in tasks[1..] ==> t in tasks;
          Err(e)
        case Ok(samples) =>
          SelectStep(recs, sums, thresholds, tasks, counter, kept, out.0, out.1, samples);
          Ok(out.0 + samples)
  }

  /** `SelectFrom` fails exactly when some task has no threshold or no totals,
      and then with the `KeyError` of the first such task. */
  lemma {:induction false} SelectFailsAtFirst(recs: seq<Record>, sums: map<TaskType, seq<ImageTotal>>,
                                              thresholds: map<TaskType, int>, tasks: seq<TaskType>, counter: nat)
    requires forall t :: t in sums ==> forall i, j :: 0 <= i < j < |sums[t]| ==> sums[t][i].image < sums[t][j].image
    ensures var r := SelectFrom(recs, sums, thresholds, tasks, counter);
            var k := FirstUnconfigured(tasks, thresholds, sums);
            if k < |tasks| then r == Err(ConfigError(tasks[k], thresholds)) else r.Ok?
    decreases |tasks|
  {
    if |tasks| > 0 && tasks[0] in thresholds && tasks[0] in sums {
      var out := SelectTask(recs, tasks[0], sums[tasks[0]], thresholds[tasks[0]], counter);
      SelectFailsAtFirst(recs, sums, thresholds, tasks[1..], out.1);
      var k := FirstUnconfigured(tasks[1..], thresholds, sums);
      assert FirstUnconfigured(tasks, thresholds, sums) == k + 1;
      assert k < |tasks[1..]| ==> tasks[1..][k] == tasks[k + 1];
    }
  }

  /** The first task's samples followed by the rest's keep every promise of
      `SelectFrom` for the whole task list. */
  lemma SelectStep(recs: seq<Record>, sums: map<TaskType, seq<ImageTotal>>, thresholds: map<TaskType, int>,
                   tasks: seq<TaskType>, counter: nat, kept: seq<int>, here: seq<Sample>, next: nat, rest: seq<Sample>)
    requires forall t :: t in sums ==> forall i, j :: 0 <= i < j < |sums[t]| ==> sums[t][i].image < sums[t][j].image
    requires |tasks| > 0 && tasks[0] in sums && tasks[0] in thresholds
    requires NumberedFrom(here, counter + 1)
    requires forall s :: s in here ==> s.task == tasks[0] && WellFormedResponses(s.responses) && LabelledWithin(recs, kept, s)
    requires TotalsBackedBy(recs, tasks[0], sums[tasks[0]]) ==>
               Follows(here, TaskPlan(tasks[0], Ascending(KeptImages(sums[tasks[0]], thresholds[tasks[0]]))))
    requires forall s :: s in here ==> AnsweredWithin(recs, kept, s)
    requires next == counter + |here| && SelectedFrom(recs, sums, thresholds, tasks[1..], next, rest)
    ensures SelectedFrom(recs, sums, thresholds, tasks, counter, here + rest)
  {
    assert forall t :: t in tasks ==> t == tasks[0] || t in tasks[1..];
    NumberedAppend(here, rest, counter + 1);
    AnsweredJoin(recs, kept, here, rest);
    WithinIsTaskLabelled(recs, kept, here);
    ScheduleStep(recs, sums, thresholds, tasks, here, rest);
    assert forall t :: t in tasks[1..] ==> t in tasks;
  }

  /** Samples answered from the groups of `images`, followed by answered
      samples, are all answered. */
  lemma AnsweredJoin(recs: seq<Record>, images: seq<int>, here: seq<Sample>, rest: seq<Sample>)
    requires forall s :: s in here ==> AnsweredWithin(recs, images, s)
    requires forall s :: s in rest ==> Answered(recs, s)
    ensures forall s :: s in here + rest ==> Answered(recs, s)
  {
    forall s | s in here ensures Answered(recs, s) {
      var image :| image in images && s.fileName == FileName(image) && RespondsWith(s, Group(recs, s.task, image));
    }
  }

  /** The first task's samples followed by the rest's follow the whole schedule. */
  lemma ScheduleStep(recs: seq<Record>, sums: map<TaskType, seq<ImageTotal>>, thresholds: map<TaskType, int>,
                     tasks: seq<TaskType>, here: seq<Sample>, rest: seq<Sample>)
    requires forall t :: t in sums ==> forall i, j :: 0 <= i < j < |sums[t]| ==> sums[t][i].image < sums[t][j].image
    requires |tasks| > 0 && tasks[0] in sums && tasks[0] in thresholds
    requires TotalsBackedBy(recs, tasks[0], sums[tasks[0]]) ==>
               Follows(here, TaskPlan(tasks[0], Ascending(KeptImages(sums[tasks[0]], thresholds[tasks[0]]))))
    requires AllTotalsBacked(recs, sums) ==> Follows(rest, Schedule(sums, thresholds, tasks[1..]))
    ensures AllTotalsBacked(recs, sums) ==> Follows(here + rest, Schedule(sums, thresholds, tasks))
  {
    if AllTotalsBacked(recs, sums) {
      var t := tasks[0];
      FollowsAppend(here, rest, TaskPlan(t, Ascending(KeptImages(sums[t], thresholds[t]))), Schedule(sums, thresholds, tasks[1..]));
    }
  }

  lemma WithinIsTaskLabelled(recs: seq<Record>, images: seq<int>, out: seq<Sample>)
    requires forall s :: s in out ==> LabelledWithin(recs, images, s)
    ensures forall s :: s in out ==> TaskLabelledBy(recs, s)
  {
    forall s | s in out ensures TaskLabelledBy(recs, s) {
      var r :| r in recs && r.task == s.task && r.image in images && s.fileName == FileName(r.image) && s.odai == r.odai;
    }
  }

  /** `choose_train_data`, visiting the tasks in the code table's order; the
      samples are numbered 1, 2, ... across all tasks. */
  function ChooseTrainData(recs: seq<Record>, sums: map<TaskType, seq<ImageTotal>>, thresholds: map<TaskType, int>)
    : (r: Result<seq<Sample>, Error>)
    requires forall t :: t in sums ==> forall i, j :: 0 <= i < j < |sums[t]| ==> sums[t][i].image < sums[t][j].image
    ensures r.Ok? ==> NumberedFrom(r.value, 1)
    ensures r.Ok? ==> forall s :: s in r.value ==> WellFormedResponses(s.responses)
    ensures r.Ok? ==> forall s :: s in r.value ==> TaskLabelledBy(recs, s)
    ensures r.Err? <==> exists t :: t in TaskOrder && (t !in thresholds || t !in sums)
    ensures r.Ok? && AllTotalsBacked(recs, sums) ==> Follows(r.value, Schedule(sums, thresholds, TaskOrder))
    ensures r.Ok? ==> forall s :: s in r.value ==> Answered(recs, s)
    ensures var k := FirstUnconfigured(TaskOrder, thresholds, sums);
            if k < |TaskOrder| then r == Err(ConfigError(TaskOrder[k], thresholds)) else r.Ok?
  {
    SelectFailsAtFirst(recs, sums, thresholds, TaskOrder, 0);
    SelectFrom(recs, sums, thresholds, TaskOrder, 0)
  }

  /** The whole run of the preparation script, from the raw records to the
      training samples. */
  function Preprocess(raws: seq<RawRecord>, ocr: seq<OcrRecord>, heldOut: seq<string>, thresholds: map<TaskType, int>)
    : (r: Result<seq<Sample>, Error>)
    ensures r.Ok? ==> NumberedFrom(r.value, 1)
    ensures r.Ok? ==> forall s :: s in r.value ==> WellFormedResponses(s.responses) && UsableSample(heldOut, ocr, s)
    ensures r.Err? ==> !r.error.MissingScores?
    ensures r.Err? <==> PrepareRecords(raws, ocr).Err? || exists t :: t in TaskOrder && t !in thresholds
    ensures r.Ok? ==> PrepareRecords(raws, ocr).Ok? && Follows(r.value, UsablePlan(PrepareRecords(raws, ocr).value, heldOut, thresholds))
    ensures r.Ok? ==> forall s :: s in r.value ==> Answered(FilterUsable(PrepareRecords(raws, ocr).value, heldOut), s)
    ensures PrepareRecords(raws, ocr).Err? ==> r == Err(PrepareRecords(raws, ocr).error)
    ensures r.Err? && PrepareRecords(raws, ocr).Ok? ==>
              exists k :: FirstWithoutThreshold(TaskOrder, thresholds, k) && r.error == MissingThreshold(TaskOrder[k])
  {
    match PrepareRecords(raws, ocr)
    case Err(e) => Err(e)
    case Ok(recs) =>
      var usable := FilterUsable(recs, heldOut);
      var r := ChooseTrainData(usable, ScoreSums(usable, TaskOrder), thresholds);
      ChooseUsable(recs, heldOut, thresholds);
      PreparedPrompts(raws, ocr);
      if r.Ok? then
        UsableSamples(ocr, heldOut, recs, usable, r.value);
        r
      else
        r
  }

  /** The schedule of the usable rows of `recs`, with totals computed from those rows. */
  ghost function UsablePlan(recs: seq<Record>, heldOut: seq<string>, thresholds: map<TaskType, int>): seq<Slot>
  {
    var usable := FilterUsable(recs, heldOut);
    Schedule(ScoreSums(usable, TaskOrder), thresholds, TaskOrder)
  }

  /** Selecting from the usable rows fails only for a missing threshold, and
      otherwise follows the usable rows' schedule. */
  lemma ChooseUsable(recs: seq<Record>, heldOut: seq<string>, thresholds: map<TaskType, int>)
    ensures var usable := FilterUsable(recs, heldOut);
            var r := ChooseTrainData(usable, ScoreSums(usable, TaskOrder), thresholds);
            && (r.Err? <==> exists t :: t in TaskOrder && t !in thresholds)
            && (r.Err? ==> exists k :: FirstWithoutThreshold(TaskOrder, thresholds, k) && r.error == MissingThreshold(TaskOrder[k]))
            && (r.Ok? ==> Follows(r.value, UsablePlan(recs, heldOut, thresholds)))
  {
    var usable := FilterUsable(recs, heldOut);
    var sums := ScoreSums(usable, TaskOrder);
    assert AllTotalsBacked(usable, sums);
    assert forall t :: t in TaskOrder ==> t in sums;
    FirstMissingThreshold(TaskOrder, thresholds, sums);
  }

  /** When every task has totals, the first task lacking a threshold or totals is
      the first one lacking a threshold, and its error is the threshold's. */
  lemma FirstMissingThreshold(tasks: seq<TaskType>, thresholds: map<TaskType, int>, sums: map<TaskType, seq<ImageTotal>>)
    requires forall t :: t in tasks ==> t in sums
    ensures var k := FirstUnconfigured(tasks, thresholds, sums);
            k < |tasks| ==> FirstWithoutThreshold(tasks, thresholds, k) && ConfigError(tasks[k], thresholds) == MissingThreshold(tasks[k])
  {
    FirstUnconfiguredIsFirst(tasks, thresholds, sums);
    var k := FirstUnconfigured(tasks, thresholds, sums);
    if k < |tasks| {
      assert tasks[k] in tasks;
    }
  }

  /** Position `k` of `tasks` holds the first task without a threshold. */
  ghost predicate FirstWithoutThreshold(tasks: seq<TaskType>, thresholds: map<TaskType, int>, k: int)
  {
    0 <= k < |tasks| && (forall j :: 0 <= j < k ==> tasks[j] in thresholds) && tasks[k] !in thresholds
  }

  /** A sample names an image that is not held out, and its prompt is the one
      resolved for that image. */
  ghost predicate UsableSample(heldOut: seq<string>, ocr: seq<OcrRecord>, s: Sample)
  {
    && s.fileName !in heldOut
    && s.odai != ""
    && exists image :: s.fileName == FileName(image) && s.odai == ResolvePrompt(s.task, image, ocr)
  }

  /** Every prepared record carries the prompt resolved for its task and image. */
  lemma PreparedPrompts(raws: seq<RawRecord>, ocr: seq<OcrRecord>)
    ensures PrepareRecords(raws, ocr).Ok? ==>
              forall r :: r in PrepareRecords(raws, ocr).value ==> r.odai == ResolvePrompt(r.task, r.image, ocr)
  {
    var p := PrepareRecords(raws, ocr);
    if p.Ok? {
      forall r | r in p.value ensures r.odai == ResolvePrompt(r.task, r.image, ocr) {
        var i :| 0 <= i < |p.value| && p.value[i] == r;
      }
    }
  }

  lemma UsableSamples(ocr: seq<OcrRecord>, heldOut: seq<string>, recs: seq<Record>, usable: seq<Record>, out: seq<Sample>)
    requires forall r :: r in recs ==> r.odai == ResolvePrompt(r.task, r.image, ocr)
    requires forall r :: r in usable ==> r in recs && r.odai != "" && FileName(r.image) !in heldOut
    requires forall s :: s in out ==> TaskLabelledBy(usable, s)
    ensures forall s :: s in out ==> UsableSample(heldOut, ocr, s)
  {
    forall s | s in out ensures UsableSample(heldOut, ocr, s) {
      var rec :| rec in usable && rec.task == s.task && s.fileName == FileName(rec.image) && s.odai == rec.odai;
    }
  }
}

=== FILE: decimal.dfy ===
/** Decimal text of integers: Python's `str(n)`, `f"{n:03}"` and `int(s)`. */
module Decimal {
  import opened Wrappers
  import opened Seqs

  predicate IsDigit(c: char) { '0' <= c <= '9' }

  predicate AllDigits(s: string) { forall i :: 0 <= i < |s| ==> IsDigit(s[i]) }

  function DigitChar(d: nat): (c: char)
    requires d < 10
    ensures IsDigit(c)
  {
    (d + '0' as int) as char
  }

  function DigitValue(c: char): (d: nat)
    requires IsDigit(c)
    ensures d < 10
  {
    c as int - '0' as int
  }

  function Pow10(k: nat): (p: nat)
    ensures p >= 1
  {
    if k == 0 then 1 else 10 * Pow10(k - 1)
  }

  /** The value of a string of decimal digits, leading zeros allowed. */
  function DigitsValue(s: string): nat
    requires AllDigits(s)
  {
    if |s| == 0 then 0 else 10 * DigitsValue(s[..|s| - 1]) + DigitValue(s[|s| - 1])
  }

  /** Reading the digits of `a + b` is reading `a`, shifted by `|b|` places, plus `b`. */
  lemma {:induction false} DigitsValueAppend(a: string, b: string)
    requires AllDigits(a) && AllDigits(b)
    ensures AllDigits(a + b)
    ensures DigitsValue(a + b) == DigitsValue(a) * Pow10(|b|) + DigitsValue(b)
    decreases |b|
  {
    if |b| == 0 {
      assert a + b == a;
    } else {
      var b' := b[..|b| - 1];
      var d := DigitValue(b[|b| - 1]);
      assert (a + b)[..|a + b| - 1] == a + b';
      assert (a + b)[|a + b| - 1] == b[|b| - 1];
      DigitsValueAppend(a, b');
      assert DigitsValue(a + b) == 10 * DigitsValue(a + b') + d;
      assert DigitsValue(b) == 10 * DigitsValue(b') + d;
      ShiftPlace(DigitsValue(a), Pow10(|b'|), DigitsValue(b'), d);
    }
  }

  /** One more digit place: `10 * (x * p + y) + d == x * (10 * p) + (10 * y + d)`. */
  lemma ShiftPlace(x: int, p: int, y: int, d: int)
    ensures 10 * (x * p + y) + d == x * (10 * p) + (10 * y + d)
  {
    assert 10 * (x * p) == x * (10 * p);
  }

  /** A run of zeros reads as zero. */
  lemma {:induction false} ZerosValue(k: nat)
    ensures AllDigits(seq(k, _ => '0'))
    ensures DigitsValue(seq(k, _ => '0')) == 0
  {
    if k > 0 {
      ZerosValue(k - 1);
      assert seq(k, _ => '0')[..k - 1] == seq(k - 1, _ => '0');
    }
  }

  /** The shape of Python's `str` of a non-negative integer: one or more ASCII
      digits, with no leading zero unless the text is `0` itself. */
  predicate CanonicalDigits(s: string)
  {
    |s| >= 1 && AllDigits(s) && (|s| > 1 ==> s[0] != '0')
  }

  /** The shape of Python's `str` of any integer: canonical digits, preceded by
      `-` for a negative value (never `-0`), and never by `+`. */
  predicate CanonicalInt(s: string)
  {
    if |s| > 0 && s[0] == '-' then CanonicalDigits(s[1..]) && s[1..] != "0" else CanonicalDigits(s)
  }

  /** Python's `str(n)` for a non-negative integer: decimal digits without a
      leading zero, which read back as `n`. */
  function ShowNat(n: nat): (s: string)
    ensures |s| >= 1 && AllDigits(s)
    ensures |s| > 1 ==> s[0] != '0'
    ensures DigitsValue(s) == n
    ensures n < 10 ==> |s| == 1
    ensures n < 100 ==> |s| <= 2
    ensures n < 1000 ==> |s| <= 3
    decreases n
  {
    if n < 10 then [DigitChar(n)]
    else
      var init := ShowNat(n / 10);
      var s := init + [DigitChar(n % 10)];
      assert s[..|s| - 1] == init;
      s
  }

  /** Distinct numbers have distinct decimal texts. */
  lemma ShowNatInjective(a: nat, b: nat)
    requires ShowNat(a) == ShowNat(b)
    ensures a == b
  {
    assert DigitsValue(ShowNat(a)) == a;
  }

  /** Python's `str(i)` (and `f"{i}"`) for any integer. */
  function ShowInt(i: int): (s: string)
    ensures |s| >= 1
    ensures i < 0 <==> s[0] == '-'
    ensures i >= 0 ==> s == ShowNat(i)
    ensures CanonicalInt(s)
  {
    if i < 0 then
      var d := ShowNat(-i);
      var s := "-" + d;
      assert s[1..] == d;
      s
    else ShowNat(i)
  }

  /** Canonical digits are the decimal text of their own value. */
  lemma {:induction false} ShowDigitsValue(s: string)
    requires CanonicalDigits(s)
    ensures ShowNat(DigitsValue(s)) == s
    decreases |s|
  {
    var n := DigitsValue(s);
    if |s| == 1 {
      assert s[..|s| - 1] == [];
      assert n == 10 * DigitsValue(s[..|s| - 1]) + DigitValue(s[0]);
    } else {
      var init, last := s[..|s| - 1], s[|s| - 1];
      assert init[0] == s[0];
      ShowDigitsValue(init);
      var m := DigitsValue(init);
      assert m != 0;
      var d := DigitValue(last);
      assert n == 10 * m + d;
      assert n / 10 == m && n % 10 == d;
      assert s == init + [last];
    }
  }

  /** A canonical integer text parses, and is exactly `str` of its value: the
      canonical shape and the value together fix the text. */
  lemma CanonicalIsShown(s: string)
    requires CanonicalInt(s)
    ensures ParseInt(s).Some? && s == ShowInt(ParseInt(s).value)
  {
    if s[0] == '-' {
      NegativeShown(s);
    } else {
      ShowDigitsValue(s);
      assert ParseInt(s) == Some(DigitsValue(s));
    }
  }

  /** A minus sign before canonical digits other than `0` reads as the negated
      value, and that value is shown as the same text. */
  lemma NegativeShown(s: string)
    requires |s| > 1 && s[0] == '-' && CanonicalDigits(s[1..]) && s[1..] != "0"
    ensures ParseInt(s) == Some(-(DigitsValue(s[1..]) as int))
    ensures ShowInt(ParseInt(s).value) == s
  {
    var d := s[1..];
    ShowDigitsValue(d);
    var v: int := DigitsValue(d);
    assert ShowNat(0) == "0";
    assert v > 0;
    assert ParseInt(s) == Some(-v);
    assert ShowInt(-v) == "-" + d;
    assert s == "-" + d;
  }

  /** Python's `f"{n:03}"`: the decimal text, left-padded with zeros to at least
      three characters; it still reads back as `n`. */
  function ZeroPad3(n: nat): (s: string)
    ensures AllDigits(s) && DigitsValue(s) == n
    ensures |s| == Max(3, |ShowNat(n)|)
    ensures n < 1000 ==> |s| == 3
  {
    var d := ShowNat(n);
    if |d| >= 3 then d
    else
      var zeros := seq(3 - |d|, _ => '0');
      ZerosValue(3 - |d|);
      DigitsValueAppend(zeros, d);
      zeros + d
  }

  /** Python's `int(s)` for the texts the data holds: an optional `+` or `-`
      followed by one or more ASCII digits, leading zeros allowed. `None` is
      the ValueError Python raises for anything else. */
  function ParseInt(s: string): (r: Option<int>)
    ensures r.Some? <==> |s| > 0 && (IsDigit(s[0]) || (|s| > 1 && s[0] in "+-")) && AllDigits(s[1..])
    ensures r.Some? && s[0] != '-' ==> r.value >= 0
    ensures r.Some? && s[0] == '-' ==> r.value <= 0
  {
    if |s| == 0 then None
    else if s[0] == '-' || s[0] == '+' then
      var body := s[1..];
      if |body| > 0 && AllDigits(body) then
        var v: int := DigitsValue(body);
        Some(if s[0] == '-' then -v else v)
      else None
    else if AllDigits(s) then Some(DigitsValue(s))
    else None
  }

  /** Parsing the decimal text of an integer gives the integer back. */
  lemma ParseShowInt(i: int)
    ensures ParseInt(ShowInt(i)) == Some(i)
  {
    var s := ShowInt(i);
    if i < 0 {
      assert s[1..] == ShowNat(-i);
    }
  }

  /** Distinct integers have distinct decimal texts. */
  lemma ShowIntInjective(a: int, b: int)
    requires ShowInt(a) == ShowInt(b)
    ensures a == b
  {
    ParseShowInt(a);
    ParseShowInt(b);
  }
}

=== FILE: keitai.dfy ===
/** The post-processing of the blog crawler. The HTML parser and the regular
    expression deliver the pieces (heading text, cell texts, the name groups of
    the match, the address of the score image); this module turns each table row
    into one answer record and lists the episodes to crawl. */
module Keitai {
  import opened Wrappers
  import opened Seqs
  import opened Decimal
  import opened Text

  /** The full-width space the blog puts between heading parts and name tokens. */
  const Ideo: char := '　'

  /** Groups 2 and 3 of the name pattern: the name part, and the rank in
      full-width parentheses when there is one. */
  datatype NameMatch = NameMatch(names: string, rank: Option<string>)

  /** One table row as the parser sees it: the number of cells, the stripped
      text of the first cell, the response text of the second cell (absent when
      it has no `font` element), the name match of the second cell, the `src` of
      the image in the third cell and the text of its `font` element. */
  datatype Row = Row(cells: nat, number: string, response: Option<string>, nameMatch: Option<NameMatch>,
                     imageSrc: Option<string>, award: Option<string>)

  /** An `h4` heading and the table that follows it, header row included. */
  datatype Heading = Heading(text: string, table: Option<seq<Row>>)

  /** One crawled answer; the score is counted in half points. */
  datatype Answer = Answer(episodeId: string, odaiId: nat, totalAnswerId: int, answerId: nat, odai: string,
                           response: string, isAwarded: string, prefecture: string, penName: string,
                           rank: string, scoreHalves: int)

  /** The ways a crawl stops with a Python exception. */
  datatype CrawlError =
    | MissingResponse             // `columns[1].find('font')` is None
    | EmptyNameTokens(names: string)  // `pref_name[-1]` on an empty list
    | MalformedNumber(number: string) // `int(number)` raises ValueError
    | NoAnswers                   // no episode produced an answer, so the frame is None

  // ---------------------------------------------------------------- headings

  /** The prompt of a heading: the second `'　'`-separated part when there are
      several, the whole text otherwise. */
  function HeadingPrompt(text: string): (odai: string)
    ensures Ideo !in text ==> odai == text
    ensures Ideo in text ==> Ideo !in odai
    ensures Ideo in text ==> exists a, b :: SecondPart(text, a, odai, b)
  {
    var parts := Split(text, Ideo);
    if |parts| > 1 then
      SecondOfSplit(text);
      parts[1]
    else text
  }

  /** `text` is `a`, a separator, `odai`, then nothing or a separator and more,
      with no separator inside `a`. */
  ghost predicate SecondPart(text: string, a: string, odai: string, b: string)
  {
    && text == a + [Ideo] + odai + b
    && Ideo !in a
    && (b == [] || b[0] == Ideo)
  }

  lemma SecondOfSplit(text: string)
    requires Ideo in text
    ensures var parts := Split(text, Ideo);
            |parts| > 1 && exists b :: SecondPart(text, parts[0], parts[1], b)
  {
    var parts := Split(text, Ideo);
    var b := JoinAfterFirst(parts[1..], Ideo);
    var whole := JoinAfterFirst(parts, Ideo);
    assert parts[1..][0] == parts[1];
    assert Join(parts[1..], Ideo) == parts[1] + b;
    assert Join(parts, Ideo) == parts[0] + ([Ideo] + (parts[1] + b));
    Regroup(parts[0], [Ideo], parts[1], b);
    assert SecondPart(text, parts[0], parts[1], b);
  }

  /** Re-associating the four pieces of a heading; stated apart because the
      solver is slow to find it inside the lemma above. */
  lemma Regroup(a: string, x: string, c: string, d: string)
    ensures a + (x + (c + d)) == a + x + c + d
  {
  }

  /** A join is its first piece followed by nothing, or by the separator and more. */
  lemma JoinAfterFirst(parts: seq<string>, sep: char) returns (b: string)
    requires |parts| >= 1
    ensures Join(parts, sep) == parts[0] + b
    ensures b == [] || b[0] == sep
    ensures |parts| > 1 ==> b == [sep] + Join(parts[1..], sep)
  {
    b := if |parts| == 1 then [] else [sep] + Join(parts[1..], sep);
  }

  /** The description is independent of how the text is split: any way of
      cutting `text` as in `SecondPart` yields the heading prompt. */
  lemma {:induction false} SecondPartIsPrompt(text: string, a: string, odai: string, b: string)
    requires Ideo !in odai
    requires SecondPart(text, a, odai, b)
    ensures HeadingPrompt(text) == odai
  {
    assert text[|a|] == Ideo && text[..|a|] == a;
    IndexOfUnique(text, Ideo, |a|);
    var rest := text[|a| + 1..];
    assert rest == odai + b;
    var parts := Split(text, Ideo);
    assert parts == [a] + Split(rest, Ideo);
    if b == [] {
      assert rest == odai;
    } else {
      assert rest[|odai|] == Ideo && rest[..|odai|] == odai;
      IndexOfUnique(rest, Ideo, |odai|);
    }
  }

  // ---------------------------------------------------------------- names

  predicate NonEmpty(t: string) { t != "" }

  /** `[n for n in match.group(2).split('　') if len(n) > 0]`. */
  function NameTokens(names: string): (tokens: seq<string>)
    ensures forall t :: t in tokens <==> t in Split(names, Ideo) && t != ""
    ensures forall t :: t in tokens ==> Ideo !in t
    ensures forall t :: multiset(tokens)[t] == if t != "" then multiset(Split(names, Ideo))[t] else 0
    ensures IsSubsequence(tokens, Split(names, Ideo))
  {
    var parts := Split(names, Ideo);
    FilterCounts(parts, NonEmpty);
    FilterIsSubsequence(parts, NonEmpty);
    Filter(parts, NonEmpty)
  }

  /** A name without full-width spaces is its own single token. */
  lemma SingleNameToken(names: string)
    requires names != "" && Ideo !in names
    ensures NameTokens(names) == [names]
  {
    assert Split(names, Ideo) == [names];
    FilterAllKept([names], NonEmpty);
  }

  /** The suffix test of the prefecture loop. */
  predicate IsPrefectureToken(t: string)
  {
    EndsWith(t, "東京都") || EndsWith(t, "北海道") || EndsWith(t, "府") || EndsWith(t, "県")
  }

  /** The loop `for p in pref_name: if ...: prefecture = p`, started from `acc`:
      it ends with the last prefecture-like token, or with its start value when
      there is none. */
  function PrefectureScan(tokens: seq<string>, acc: string): (p: string)
    ensures NoPrefectureToken(tokens) ==> p == acc
    ensures forall i :: LastPrefectureAt(tokens, i) ==> p == tokens[i]
    decreases |tokens|
  {
    if |tokens| == 0 then acc
    else
      var acc' := if IsPrefectureToken(tokens[0]) then tokens[0] else acc;
      var p := PrefectureScan(tokens[1..], acc');
      ScanStep(tokens, acc, acc', p);
      p
  }

  /** Position `i` holds the last prefecture-like token. */
  ghost predicate LastPrefectureAt(tokens: seq<string>, i: int)
  {
    0 <= i < |tokens| && IsPrefectureToken(tokens[i]) && forall j :: i < j < |tokens| ==> !IsPrefectureToken(tokens[j])
  }

  ghost predicate NoPrefectureToken(tokens: seq<string>)
  {
    forall j :: 0 <= j < |tokens| ==> !IsPrefectureToken(tokens[j])
  }

  /** One step of the loop: what the rest of the loop ends with, given the
      value after the first token, is what the whole loop ends with. */
  lemma ScanStep(tokens: seq<string>, acc: string, acc': string, p: string)
    requires |tokens| > 0 && acc' == if IsPrefectureToken(tokens[0]) then tokens[0] else acc
    requires NoPrefectureToken(tokens[1..]) ==> p == acc'
    requires forall i :: LastPrefectureAt(tokens[1..], i) ==> p == tokens[1..][i]
    ensures NoPrefectureToken(tokens) ==> p == acc
    ensures forall i :: LastPrefectureAt(tokens, i) ==> p == tokens[i]
  {
    var tail := tokens[1..];
    assert forall j :: 1 <= j < |tokens| ==> tokens[j] == tail[j - 1];
    forall i | LastPrefectureAt(tokens, i)
      ensures p == tokens[i]
    {
      if i > 0 {
        assert LastPrefectureAt(tail, i - 1);
      } else {
        assert NoPrefectureToken(tail);
      }
    }
  }

  /** The prefecture of a name: the last prefecture-like token; failing that the
      second-to-last token when there are two or more; failing that nothing. */
  function Prefecture(tokens: seq<string>): (p: string)
    ensures forall i :: LastPrefectureAt(tokens, i) ==> p == tokens[i]
    ensures NoPrefectureToken(tokens) && |tokens| > 1 ==> p == tokens[|tokens| - 2]
    ensures NoPrefectureToken(tokens) && |tokens| <= 1 ==> p == ""
  {
    var found := PrefectureScan(tokens, "");
    if found == "" then (if |tokens| > 1 then tokens[|tokens| - 2] else "")
    else found
  }

  /** `f"（{match.group(3)}）" if match.group(3) else ""`. */
  function Rank(group3: Option<string>): (rank: string)
    ensures rank == "" <==> group3.None? || group3.value == ""
    ensures rank != "" ==> |rank| == |group3.value| + 2 && rank[1..|rank| - 1] == group3.value
    ensures rank != "" ==> rank[0] == '（' && rank[|rank| - 1] == '）'
  {
    if group3.Some? && group3.value != "" then "（" + group3.value + "）" else ""
  }

  /** Prefecture, pen name and rank of a row. */
  datatype NameInfo = NameInfo(prefecture: string, penName: string, rank: string)

  /** The name fields of a row: all empty when the pattern does not match, and
      an error when the name part has no non-empty token. */
  function NameFields(m: Option<NameMatch>): (r: Result<NameInfo, CrawlError>)
    ensures m.None? ==> r == Ok(NameInfo("", "", ""))
    ensures r.Err? <==> m.Some? && NameTokens(m.value.names) == []
    ensures r.Err? ==> r.error == EmptyNameTokens(m.value.names)
    ensures m.Some? && r.Ok? ==>
              var tokens := NameTokens(m.value.names);
              && r.value.penName == tokens[|tokens| - 1]
              && r.value.penName != "" && Ideo !in r.value.penName
              && r.value.prefecture == Prefecture(tokens)
              && r.value.rank == Rank(m.value.rank)
  {
    match m
    case None => Ok(NameInfo("", "", ""))
    case Some(nm) =>
      var tokens := NameTokens(nm.names);
      if |tokens| == 0 then Err(EmptyNameTokens(nm.names))
      else
        assert tokens[|tokens| - 1] in tokens;
        Ok(NameInfo(Prefecture(tokens), tokens[|tokens| - 1], Rank(nm.rank)))
  }

  // ---------------------------------------------------------------- numbers and scores

  /** `-1` for an empty number cell, `int(number)` otherwise. */
  function TotalAnswerId(number: string): (r: Result<int, CrawlError>)
    ensures number == "" ==> r == Ok(-1)
    ensures number != "" ==> (r.Ok? <==> ParseInt(number).Some?)
    ensures number != "" && r.Ok? ==> r.value == ParseInt(number).value
    ensures r.Err? ==> r.error == MalformedNumber(number)
  {
    if number == "" then Ok(-1)
    else
      match ParseInt(number)
      case Some(v) => Ok(v)
      case None => Err(MalformedNumber(number))
  }

  /** A number cell holding the decimal text of `i` gives back `i`. */
  lemma TotalAnswerIdOfShown(i: int)
    ensures TotalAnswerId(ShowInt(i)) == Ok(i)
  {
    ParseShowInt(i);
  }

  const ImageFolder: string := "https://cdn-ak.f.st-hatena.com/images/fotolife/a/attey35/"
  const ThreeAntennas: string := ImageFolder + "20200503/20200503131348.png"
  const TwoAntennas: string := ImageFolder + "20200503/20200503131404.png"
  const TwoAndHalfAntennas: string := ImageFolder + "20200503/20200503131357.png"
  const OneAntenna: string := ImageFolder + "20200503/20200503131410.png"

  /** The four known images are four different addresses. */
  lemma AntennaImagesDiffer()
    ensures ThreeAntennas != TwoAntennas && ThreeAntennas != TwoAndHalfAntennas && ThreeAntennas != OneAntenna
    ensures TwoAntennas != TwoAndHalfAntennas && TwoAntennas != OneAntenna && TwoAndHalfAntennas != OneAntenna
  {
    var k := |ImageFolder| + 20;
    assert ThreeAntennas[k] == '3' && ThreeAntennas[k + 1] == '4';
    assert TwoAntennas[k] == '4' && TwoAntennas[k + 1] == '0';
    assert TwoAndHalfAntennas[k] == '3' && TwoAndHalfAntennas[k + 1] == '5';
    assert OneAntenna[k] == '4' && OneAntenna[k + 1] == '1';
  }

  /** The score of the antenna image, in half points: 3.0, 2.0, 2.5 and 1.0 for
      the four known images, -1 for any other image of the blog's folder, and 0
      for anything else, no image included. */
  function ScoreHalves(image: string): (score: int)
    ensures image == ThreeAntennas ==> score == 6
    ensures image == TwoAntennas ==> score == 4
    ensures image == TwoAndHalfAntennas ==> score == 5
    ensures image == OneAntenna ==> score == 2
    ensures image !in [ThreeAntennas, TwoAntennas, TwoAndHalfAntennas, OneAntenna] ==>
              score == (if StartsWith(image, ImageFolder) then -2 else 0)
  {
    AntennaImagesDiffer();
    if image == ThreeAntennas then 6
    else if image == TwoAntennas then 4
    else if image == TwoAndHalfAntennas then 5
    else if image == OneAntenna then 2
    else if StartsWith(image, ImageFolder) then -2
    else 0
  }

  /** The four known images lie in the blog's folder too, so the exact tests
      must come before the folder test; the score is non-zero exactly for images
      of that folder. */
  lemma ScoreOfFolder(image: string)
    ensures StartsWith(ThreeAntennas, ImageFolder) && StartsWith(TwoAntennas, ImageFolder)
    ensures StartsWith(TwoAndHalfAntennas, ImageFolder) && StartsWith(OneAntenna, ImageFolder)
    ensures ScoreHalves(image) != 0 <==> StartsWith(image, ImageFolder)
    ensures -2 <= ScoreHalves(image) <= 6
  {
    assert ThreeAntennas[..|ImageFolder|] == ImageFolder;
    assert TwoAntennas[..|ImageFolder|] == ImageFolder;
    assert TwoAndHalfAntennas[..|ImageFolder|] == ImageFolder;
    assert OneAntenna[..|ImageFolder|] == ImageFolder;
  }

  // ---------------------------------------------------------------- rows

  /** The record of one body row, or nothing for a row of two cells or fewer. */
  function ExtractRow(episodeId: string, odaiId: nat, answerId: nat, odai: string, row: Row)
    : (r: Result<Option<Answer>, CrawlError>)
    ensures row.cells <= 2 ==> r == Ok(None)
    ensures r.Ok? && r.value.Some? ==>
              var a := r.value.value;
              && row.cells > 2
              && a.episodeId == episodeId && a.odaiId == odaiId && a.answerId == answerId && a.odai == odai
              && row.response == Some(a.response)
              && NameFields(row.nameMatch) == Ok(NameInfo(a.prefecture, a.penName, a.rank))
              && TotalAnswerId(row.number) == Ok(a.totalAnswerId)
              && a.scoreHalves == ScoreHalves(if row.imageSrc.Some? then row.imageSrc.value else "")
              && a.isAwarded == (if row.award.Some? then row.award.value else "")
    ensures row.cells > 2 ==> r != Ok(None)
    ensures r.Err? ==> row.cells > 2 && (row.response.None? <==> r.error == MissingResponse)
    ensures r.Err? <==> row.cells > 2 &&
                        (row.response.None? || NameFields(row.nameMatch).Err? || TotalAnswerId(row.number).Err?)
    ensures row.cells > 2 && row.response.None? ==> r == Err(MissingResponse)
    ensures row.cells > 2 && row.response.Some? && NameFields(row.nameMatch).Err? ==>
              r == Err(NameFields(row.nameMatch).error)
    ensures row.cells > 2 && row.response.Some? && NameFields(row.nameMatch).Ok? && TotalAnswerId(row.number).Err? ==>
              r == Err(TotalAnswerId(row.number).error)
  {
    if row.cells <= 2 then Ok(None)
    else
      match row.response
      case None => Err(MissingResponse)
      case Some(response) =>
        match NameFields(row.nameMatch)
        case Err(e) => Err(e)
        case Ok(info) =>
          match TotalAnswerId(row.number)
          case Err(e) => Err(e)
          case Ok(total) =>
            var image := if row.imageSrc.Some? then row.imageSrc.value else "";
            var awarded := if row.award.Some? then row.award.value else "";
            Ok(Some(Answer(episodeId, odaiId, total, answerId, odai, response, awarded,
                           info.prefecture, info.penName, info.rank, ScoreHalves(image))))
  }

  /** A row that yields a record. */
  predicate Wide(row: Row) { row.cells > 2 }

  /** What body row `k` of a table extracts to; body rows are numbered from 1. */
  function RowResult(episodeId: string, odaiId: nat, odai: string, rows: seq<Row>, k: nat)
    : Result<Option<Answer>, CrawlError>
    requires k < |rows|
  {
    ExtractRow(episodeId, odaiId, k + 1, odai, rows[k])
  }

  /** `a` belongs to the heading `odaiId` with prompt `odai` and is the record
      extracted from a wide body row of `rows`, the one numbered `a.answerId`. */
  ghost predicate FromRow(a: Answer, rows: seq<Row>, episodeId: string, odaiId: nat, odai: string)
  {
    && a.episodeId == episodeId && a.odaiId == odaiId && a.odai == odai
    && 1 <= a.answerId <= |rows|
    && Wide(rows[a.answerId - 1])
    && RowResult(episodeId, odaiId, odai, rows, a.answerId - 1) == Ok(Some(a))
  }

  /** Every body row from position `i` on extracts without an error. */
  ghost predicate RowsExtract(episodeId: string, odaiId: nat, odai: string, rows: seq<Row>, i: nat)
  {
    forall k: nat :: i <= k < |rows| ==> RowResult(episodeId, odaiId, odai, rows, k).Ok?
  }

  ghost predicate IncreasingAnswerIds(answers: seq<Answer>)
  {
    forall k, l :: 0 <= k < l < |answers| ==> answers[k].answerId < answers[l].answerId
  }

  /** The loop over the body rows of a table from position `i` on: one record per
      wide row, in row order, numbered by the row's position from 1. */
  function CrawlRows(episodeId: string, odaiId: nat, odai: string, rows: seq<Row>, i: nat)
    : (r: Result<seq<Answer>, CrawlError>)
    requires i <= |rows|
    ensures r.Ok? <==> RowsExtract(episodeId, odaiId, odai, rows, i)
    ensures r.Ok? ==> |r.value| == |Filter(rows[i..], Wide)|
    ensures r.Ok? ==> forall a :: a in r.value ==> FromRow(a, rows, episodeId, odaiId, odai) && a.answerId > i
    ensures r.Ok? ==> IncreasingAnswerIds(r.value)
    decreases |rows| - i
  {
    if i == |rows| then Ok([])
    else
      RowsExtractStep(episodeId, odaiId, odai, rows, i);
      match RowResult(episodeId, odaiId, odai, rows, i)
      case Err(e) => Err(e)
      case Ok(first) =>
        match CrawlRows(episodeId, odaiId, odai, rows, i + 1)
        case Err(e) => Err(e)
        case Ok(rest) =>
          RowsStep(rows, i);
          if first.Some? then
            RowsCons(first.value, rest, i);
            Ok([first.value] + rest)
          else
            Ok(rest)
  }

  /** The rows from `i` on extract exactly when row `i` does and the later ones do. */
  lemma RowsExtractStep(episodeId: string, odaiId: nat, odai: string, rows: seq<Row>, i: nat)
    requires i < |rows|
    ensures RowsExtract(episodeId, odaiId, odai, rows, i) <==>
              RowResult(episodeId, odaiId, odai, rows, i).Ok? && RowsExtract(episodeId, odaiId, odai, rows, i + 1)
  {
  }

  /** A record numbered `i + 1`, put before records numbered above it. */
  lemma RowsCons(first: Answer, rest: seq<Answer>, i: nat)
    requires first.answerId == i + 1
    requires forall a :: a in rest ==> a.answerId > i + 1
    requires IncreasingAnswerIds(rest)
    ensures IncreasingAnswerIds([first] + rest)
  {
    var all := [first] + rest;
    forall k | 1 <= k < |all|
      ensures all[k] == rest[k - 1] && all[k] in rest
    {
    }
  }

  /** Dropping the row at position `i` drops one wide row exactly when it is wide. */
  lemma RowsStep(rows: seq<Row>, i: nat)
    requires i < |rows|
    ensures |Filter(rows[i..], Wide)| == |Filter(rows[i + 1..], Wide)| + (if Wide(rows[i]) then 1 else 0)
  {
    assert rows[i..] == [rows[i]] + rows[i + 1..];
    FilterAppend([rows[i]], rows[i + 1..], Wide);
    assert Filter([rows[i]], Wide) == Filter([], Wide) + (if Wide(rows[i]) then [rows[i]] else []);
  }

  /** The body rows of a heading's table: all rows after the header row, none
      without a table. */
  function BodyRows(heading: Heading): seq<Row>
  {
    match heading.table
    case None => []
    case Some(rows) => if |rows| == 0 then [] else rows[1..]
  }

  /** The records of one heading: the rows after the header row, numbered from 1;
      no table gives no record. */
  function CrawlHeading(episodeId: string, odaiId: nat, heading: Heading): (r: Result<seq<Answer>, CrawlError>)
    ensures heading.table.None? ==> r == Ok([])
    ensures r.Ok? <==> RowsExtract(episodeId, odaiId, HeadingPrompt(heading.text), BodyRows(heading), 0)
    ensures r.Ok? ==> |r.value| == |Filter(BodyRows(heading), Wide)|
    ensures r.Ok? ==> IncreasingAnswerIds(r.value)
    ensures r.Ok? ==> forall a :: a in r.value ==> FromRow(a, BodyRows(heading), episodeId, odaiId, HeadingPrompt(heading.text))
  {
    var rows := BodyRows(heading);
    assert rows[0..] == rows;
    CrawlRows(episodeId, odaiId, HeadingPrompt(heading.text), rows, 0)
  }

  function OdaiIdOf(a: Answer): int { a.odaiId }

  /** What heading `k` of a page crawls to; headings are numbered from 1. */
  function HeadingResult(episodeId: string, headings: seq<Heading>, k: nat): Result<seq<Answer>, CrawlError>
    requires k < |headings|
  {
    CrawlHeading(episodeId, k + 1, headings[k])
  }

  /** Every heading from position `i` on crawls without an error. */
  ghost predicate HeadingsCrawl(episodeId: string, headings: seq<Heading>, i: nat)
  {
    forall k: nat :: i <= k < |headings| ==> HeadingResult(episodeId, headings, k).Ok?
  }

  /** The records of each heading crawled on its own (none for one that fails). */
  ghost function HeadingRecords(episodeId: string, headings: seq<Heading>): (parts: seq<seq<Answer>>)
    ensures |parts| == |headings|
  {
    seq(|headings|, k requires 0 <= k < |headings| =>
      var r := HeadingResult(episodeId, headings, k);
      if r.Ok? then r.value else [])
  }

  /** `a` comes from one of `headings`, the one numbered `a.odaiId`. */
  ghost predicate FromHeading(a: Answer, headings: seq<Heading>, episodeId: string)
  {
    && a.episodeId == episodeId
    && 1 <= a.odaiId <= |headings|
    && a.odai == HeadingPrompt(headings[a.odaiId - 1].text)
  }

  ghost predicate NondecreasingOdaiIds(answers: seq<Answer>)
  {
    forall k, l :: 0 <= k < l < |answers| ==> answers[k].odaiId <= answers[l].odaiId
  }

  /** The loop over the headings of a page from position `i` on: the records of
      each heading, heading after heading, so that the records numbered `k + 1`
      are exactly those of heading `k`. */
  function CrawlHeadings(episodeId: string, headings: seq<Heading>, i: nat): (r: Result<seq<Answer>, CrawlError>)
    requires i <= |headings|
    ensures r.Ok? <==> HeadingsCrawl(episodeId, headings, i)
    ensures r.Ok? ==> GroupedFrom(r.value, OdaiIdOf, 1, HeadingRecords(episodeId, headings), i)
    ensures r.Ok? ==> forall a :: a in r.value ==> FromHeading(a, headings, episodeId) && a.odaiId > i
    ensures r.Ok? ==> NondecreasingOdaiIds(r.value)
    decreases |headings| - i
  {
    if i == |headings| then Ok([])
    else
      HeadingsCrawlStep(episodeId, headings, i);
      match HeadingResult(episodeId, headings, i)
      case Err(e) => Err(e)
      case Ok(first) =>
        match CrawlHeadings(episodeId, headings, i + 1)
        case Err(e) => Err(e)
        case Ok(rest) =>
          HeadingsCons(first, rest, headings, i, episodeId);
          GroupedCons(first, rest, OdaiIdOf, 1, HeadingRecords(episodeId, headings), i);
          Ok(first + rest)
  }

  /** The headings from `i` on crawl exactly when heading `i` does and the later ones do. */
  lemma HeadingsCrawlStep(episodeId: string, headings: seq<Heading>, i: nat)
    requires i < |headings|
    ensures HeadingsCrawl(episodeId, headings, i) <==>
              HeadingResult(episodeId, headings, i).Ok? && HeadingsCrawl(episodeId, headings, i + 1)
  {
  }

  /** The records of heading `i` followed by those of the later headings come
      from the headings, in nondecreasing heading order. */
  lemma HeadingsCons(first: seq<Answer>, rest: seq<Answer>, headings: seq<Heading>, i: nat, episodeId: string)
    requires i < |headings|
    requires forall a :: a in first ==> FromRow(a, BodyRows(headings[i]), episodeId, i + 1, HeadingPrompt(headings[i].text))
    requires forall a :: a in rest ==> FromHeading(a, headings, episodeId) && a.odaiId > i + 1
    requires NondecreasingOdaiIds(rest)
    ensures forall a :: a in first ==> OdaiIdOf(a) == 1 + i
    ensures forall a :: a in rest ==> OdaiIdOf(a) > 1 + i
    ensures forall a :: a in first + rest ==> FromHeading(a, headings, episodeId) && a.odaiId > i
    ensures NondecreasingOdaiIds(first + rest)
  {
    forall a | a in first ensures FromHeading(a, headings, episodeId) && a.odaiId == i + 1 {
      assert a.odaiId - 1 == i;
    }
    HeadingsOrder(first, rest, i + 1);
  }

  /** Answers all numbered `n` followed by ordered answers numbered above `n` stay ordered. */
  lemma HeadingsOrder(first: seq<Answer>, rest: seq<Answer>, n: nat)
    requires forall a :: a in first ==> a.odaiId == n
    requires forall a :: a in rest ==> a.odaiId > n
    requires NondecreasingOdaiIds(rest)
    ensures NondecreasingOdaiIds(first + rest)
  {
    var all := first + rest;
    forall k, l | 0 <= k < l < |all|
      ensures all[k].odaiId <= all[l].odaiId
    {
      if k >= |first| {
        assert all[k] == rest[k - |first|] && all[l] == rest[l - |first|];
      } else if l >= |first| {
        assert all[k] in first && all[l] in rest;
      } else {
        assert all[k] in first && all[l] in first;
      }
    }
  }

  /** `crawl_ktai_ogiri`: a page that could not be fetched gives no record;
      otherwise the headings are numbered from 1, and the records numbered `k + 1`
      are exactly those of heading `k`. */
  function CrawlPage(episodeId: string, page: Option<seq<Heading>>): (r: Result<seq<Answer>, CrawlError>)
    ensures page.None? ==> r == Ok([])
    ensures page.Some? ==> (r.Ok? <==> HeadingsCrawl(episodeId, page.value, 0))
    ensures r.Ok? && page.Some? ==> GroupedFrom(r.value, OdaiIdOf, 1, HeadingRecords(episodeId, page.value), 0)
    ensures r.Ok? && page.Some? ==> forall a :: a in r.value ==> FromHeading(a, page.value, episodeId)
    ensures r.Ok? ==> forall a :: a in r.value ==> a.episodeId == episodeId
  {
    match page
    case None => Ok([])
    case Some(headings) => CrawlHeadings(episodeId, headings, 0)
  }

  // ---------------------------------------------------------------- episodes

  const SpecialEpisodes: seq<string> := ["ex1", "ex2", "ex3", "sp1", "sp2", "sp3", "sp4"]

  /** `[f"{i:03}" for i in range(1, 304)] + special`. */
  function EpisodeIds(): (ids: seq<string>)
    ensures |ids| == 310
    ensures forall i :: 0 <= i < 303 ==> |ids[i]| == 3 && AllDigits(ids[i]) && DigitsValue(ids[i]) == i + 1
    ensures forall i :: 303 <= i < 310 ==> ids[i] == SpecialEpisodes[i - 303]
  {
    var numbered := seq(303, i requires 0 <= i < 303 => ZeroPad3(i + 1));
    numbered + SpecialEpisodes
  }

  /** No episode is crawled twice. */
  lemma EpisodeIdsDistinct()
    ensures DistinctIds(EpisodeIds())
  {
    var ids := EpisodeIds();
    forall i, j | 0 <= i < j < |ids|
      ensures ids[i] != ids[j]
    {
      if j < 303 {
        NumberedDiffer(ids[i], ids[j], i, j);
      } else if i < 303 {
        SpecialNotNumbered(ids[i], ids[j]);
      } else {
        SpecialDiffer(i - 303, j - 303);
      }
    }
  }

  /** Two numbered episodes with different numbers differ. */
  lemma NumberedDiffer(a: string, b: string, i: int, j: int)
    requires AllDigits(a) && AllDigits(b)
    requires DigitsValue(a) == i + 1 && DigitsValue(b) == j + 1 && i != j
    ensures a != b
  {
  }

  /** A special episode starts with a letter, so it is not a numbered one. */
  lemma SpecialNotNumbered(a: string, b: string)
    requires |a| == 3 && AllDigits(a) && b in SpecialEpisodes
    ensures a != b
  {
    assert !IsDigit(b[0]);
  }

  /** The special episodes differ from each other. */
  lemma SpecialDiffer(i: int, j: int)
    requires 0 <= i < j < |SpecialEpisodes|
    ensures SpecialEpisodes[i] != SpecialEpisodes[j]
  {
    var s := SpecialEpisodes;
    assert s[i][0] != s[j][0] || s[i][2] != s[j][2];
  }

  ghost predicate DistinctIds(ids: seq<string>)
  {
    forall i, j :: 0 <= i < j < |ids| ==> ids[i] != ids[j]
  }

  function EpisodeOf(a: Answer): string { a.episodeId }

  /** What the page of episode `k` crawls to. */
  function PageResult(ids: seq<string>, fetch: string -> Option<seq<Heading>>, k: nat): Result<seq<Answer>, CrawlError>
    requires k < |ids|
  {
    CrawlPage(ids[k], fetch(ids[k]))
  }

  /** Every page from position `i` on crawls without an error. */
  ghost predicate PagesCrawl(ids: seq<string>, fetch: string -> Option<seq<Heading>>, i: nat)
  {
    forall k: nat :: i <= k < |ids| ==> PageResult(ids, fetch, k).Ok?
  }

  /** The records of episode `ids[k]` are exactly those of its page, for every `k >= i`. */
  ghost predicate PerEpisode(answers: seq<Answer>, ids: seq<string>, fetch: string -> Option<seq<Heading>>, i: nat)
    requires PagesCrawl(ids, fetch, i)
  {
    forall k: nat :: i <= k < |ids| ==> Having(answers, EpisodeOf, ids[k]) == PageResult(ids, fetch, k).value
  }

  /** The loop of `main` over the episodes from position `i` on: the records of
      each page, page after page. */
  function CrawlEpisodes(ids: seq<string>, fetch: string -> Option<seq<Heading>>, i: nat)
    : (r: Result<seq<Answer>, CrawlError>)
    requires i <= |ids|
    ensures r.Ok? <==> PagesCrawl(ids, fetch, i)
    ensures r.Ok? ==> forall a :: a in r.value ==> a.episodeId in ids[i..]
    ensures r.Ok? && DistinctIds(ids) ==> PerEpisode(r.value, ids, fetch, i)
    ensures r.Ok? && DistinctIds(ids) ==> EpisodesInOrder(r.value, ids)
    decreases |ids| - i
  {
    if i == |ids| then Ok([])
    else
      PagesCrawlStep(ids, fetch, i);
      match PageResult(ids, fetch, i)
      case Err(e) => Err(e)
      case Ok(first) =>
        match CrawlEpisodes(ids, fetch, i + 1)
        case Err(e) => Err(e)
        case Ok(rest) =>
          EpisodesCons(first, rest, ids, fetch, i);
          Ok(first + rest)
  }

  /** The pages from `i` on crawl exactly when page `i` does and the later ones do. */
  lemma PagesCrawlStep(ids: seq<string>, fetch: string -> Option<seq<Heading>>, i: nat)
    requires i < |ids|
    ensures PagesCrawl(ids, fetch, i) <==> PageResult(ids, fetch, i).Ok? && PagesCrawl(ids, fetch, i + 1)
  {
  }

  /** The records of page `i` followed by those of the later pages. */
  lemma EpisodesCons(first: seq<Answer>, rest: seq<Answer>, ids: seq<string>, fetch: string -> Option<seq<Heading>>, i: nat)
    requires i < |ids| && PageResult(ids, fetch, i) == Ok(first)
    requires PagesCrawl(ids, fetch, i + 1)
    requires forall a :: a in rest ==> a.episodeId in ids[i + 1..]
    requires DistinctIds(ids) ==> PerEpisode(rest, ids, fetch, i + 1)
    requires DistinctIds(ids) ==> EpisodesInOrder(rest, ids)
    ensures forall a :: a in first + rest ==> a.episodeId in ids[i..]
    ensures DistinctIds(ids) ==> PerEpisode(first + rest, ids, fetch, i)
    ensures DistinctIds(ids) ==> EpisodesInOrder(first + rest, ids)
  {
    assert forall a :: a in first ==> EpisodeOf(a) == ids[i];
    assert ids[i..] == [ids[i]] + ids[i + 1..];
    if DistinctIds(ids) {
      EpisodesOrder(first, rest, ids, i);
      forall k: nat | i <= k < |ids|
        ensures Having(first + rest, EpisodeOf, ids[k]) == PageResult(ids, fetch, k).value
      {
        HavingAppend(first, rest, EpisodeOf, ids[k]);
        if k == i {
          HavingAll(first, EpisodeOf, ids[i]);
          LaterEpisodes(rest, ids, i);
          HavingNone(rest, EpisodeOf, ids[i]);
        } else {
          HavingNone(first, EpisodeOf, ids[k]);
        }
      }
    }
  }

  /** Where the episode of `a` stands in the episode list `ids`. */
  function EpisodePos(ids: seq<string>, a: Answer): nat { Position(ids, a.episodeId) }

  /** The records come episode by episode in the order of `ids`. */
  ghost predicate EpisodesInOrder(answers: seq<Answer>, ids: seq<string>)
  {
    forall k, l :: 0 <= k < l < |answers| ==> EpisodePos(ids, answers[k]) <= EpisodePos(ids, answers[l])
  }

  /** In a list without repeats, the entry at position `i` is found at `i`. */
  lemma PositionOfDistinct(ids: seq<string>, i: nat)
    requires i < |ids| && DistinctIds(ids)
    ensures Position(ids, ids[i]) == i
  {
    assert ids[i] in ids;
  }

  /** Records of episode `ids[i]` followed by ordered records of later episodes
      stay ordered. */
  lemma EpisodesOrder(first: seq<Answer>, rest: seq<Answer>, ids: seq<string>, i: nat)
    requires i < |ids| && DistinctIds(ids)
    requires forall a :: a in first ==> a.episodeId == ids[i]
    requires forall a :: a in rest ==> a.episodeId in ids[i + 1..]
    requires EpisodesInOrder(rest, ids)
    ensures EpisodesInOrder(first + rest, ids)
  {
    PositionOfDistinct(ids, i);
    forall a | a in rest ensures EpisodePos(ids, a) > i {
      var k :| 0 <= k < |ids[i + 1..]| && ids[i + 1..][k] == a.episodeId;
      assert ids[i + 1 + k] == a.episodeId;
      PositionOfDistinct(ids, i + 1 + k);
    }
    var all := first + rest;
    forall k, l | 0 <= k < l < |all|
      ensures EpisodePos(ids, all[k]) <= EpisodePos(ids, all[l])
    {
      if k >= |first| {
        assert all[k] == rest[k - |first|] && all[l] == rest[l - |first|];
      } else if l >= |first| {
        assert all[k] in first && all[l] in rest;
      } else {
        assert all[k] in first && all[l] in first;
      }
    }
  }

  /** Records of the later episodes are not records of episode `i`. */
  lemma LaterEpisodes(rest: seq<Answer>, ids: seq<string>, i: nat)
    requires i < |ids| && DistinctIds(ids)
    requires forall a :: a in rest ==> a.episodeId in ids[i + 1..]
    ensures forall a :: a in rest ==> EpisodeOf(a) != ids[i]
  {
    forall a | a in rest ensures EpisodeOf(a) != ids[i] {
      var k :| 0 <= k < |ids[i + 1..]| && ids[i + 1..][k] == a.episodeId;
      assert ids[i + 1 + k] == a.episodeId;
    }
  }

  /** Some page has records exactly when the records of all pages are not empty. */
  lemma SomePageAnswers(answers: seq<Answer>, ids: seq<string>, fetch: string -> Option<seq<Heading>>)
    requires PagesCrawl(ids, fetch, 0) && PerEpisode(answers, ids, fetch, 0)
    requires forall a :: a in answers ==> a.episodeId in ids
    ensures answers != [] <==> exists k: nat :: k < |ids| && PageResult(ids, fetch, k).value != []
  {
    if answers != [] {
      var a := answers[0];
      assert a in answers;
      var k :| 0 <= k < |ids| && ids[k] == a.episodeId;
      assert a in Having(answers, EpisodeOf, ids[k]);
    }
  }

  /** The end of `main` of the crawler for the episode list `ids`: every episode
      in order, failing when none of them produced an answer. */
  function CrawlList(ids: seq<string>, fetch: string -> Option<seq<Heading>>): (r: Result<seq<Answer>, CrawlError>)
    requires DistinctIds(ids)
    ensures r.Ok? <==> PagesCrawl(ids, fetch, 0) &&
                       exists k: nat :: k < |ids| && PageResult(ids, fetch, k).value != []
    ensures r.Ok? ==> PerEpisode(r.value, ids, fetch, 0)
    ensures r.Ok? ==> EpisodesInOrder(r.value, ids)
    ensures r.Ok? ==> |r.value| > 0 && forall a :: a in r.value ==> a.episodeId in ids
    ensures PagesCrawl(ids, fetch, 0) && r.Err? ==> r.error == NoAnswers
    ensures (forall e :: e in ids ==> fetch(e).None?) ==> r == Err(NoAnswers)
  {
    assert ids[0..] == ids;
    match CrawlEpisodes(ids, fetch, 0)
    case Err(e) => Err(e)
    case Ok(answers) =>
      SomePageAnswers(answers, ids, fetch);
      NoPages(ids, fetch);
      if |answers| == 0 then Err(NoAnswers) else Ok(answers)
  }

  /** `main` of the crawler: every episode of the fixed list, in order. */
  function CrawlAll(fetch: string -> Option<seq<Heading>>): (r: Result<seq<Answer>, CrawlError>)
    ensures r.Ok? <==> PagesCrawl(EpisodeIds(), fetch, 0) &&
                       exists k: nat :: k < |EpisodeIds()| && PageResult(EpisodeIds(), fetch, k).value != []
    ensures r.Ok? ==> PerEpisode(r.value, EpisodeIds(), fetch, 0)
    ensures r.Ok? ==> EpisodesInOrder(r.value, EpisodeIds())
    ensures r.Ok? ==> |r.value| > 0 && forall a :: a in r.value ==> a.episodeId in EpisodeIds()
    ensures PagesCrawl(EpisodeIds(), fetch, 0) && r.Err? ==> r.error == NoAnswers
    ensures (forall e :: e in EpisodeIds() ==> fetch(e).None?) ==> r == Err(NoAnswers)
  {
    EpisodeIdsDistinct();
    CrawlList(EpisodeIds(), fetch)
  }

  /** When no page can be fetched, every page crawls to nothing. */
  lemma NoPages(ids: seq<string>, fetch: string -> Option<seq<Heading>>)
    ensures (forall e :: e in ids ==> fetch(e).None?) ==>
              PagesCrawl(ids, fetch, 0) && forall k: nat :: k < |ids| ==> PageResult(ids, fetch, k).value == []
  {
    if forall e :: e in ids ==> fetch(e).None? {
      forall k: nat | k < |ids| ensures PageResult(ids, fetch, k) == Ok([]) {
        assert ids[k] in ids;
      }
    }
  }
}

=== FILE: seqs.dfy ===
/** Sequence helpers that mirror the list and table operations the scripts use:
    boolean-mask filtering, Python's `s[:k]` slice, and small numeric helpers. */
module Seqs {
  import opened Wrappers

  function Min(a: int, b: int): int { if a <= b then a else b }

  function Max(a: int, b: int): int { if a >= b then a else b }

  /** `r` keeps some elements of `s`, in the order they have in `s`. */
  ghost predicate IsSubsequence<T>(r: seq<T>, s: seq<T>)
    decreases |s|
  {
    if |r| == 0 then true
    else if |s| == 0 then false
    else if r[|r| - 1] == s[|s| - 1] then IsSubsequence(r[..|r| - 1], s[..|s| - 1])
    else IsSubsequence(r, s[..|s| - 1])
  }

  /** The rows of a table that a boolean mask selects (`df[mask]`): the
      elements satisfying `p`, in their original order. */
  function Filter<T(==,!new)>(s: seq<T>, p: T -> bool): (r: seq<T>)
    ensures |r| <= |s|
    ensures forall x :: x in r <==> x in s && p(x)
    decreases |s|
  {
    if |s| == 0 then []
    else
      var init := Filter(s[..|s| - 1], p);
      var last := s[|s| - 1];
      assert s == s[..|s| - 1] + [last];
      if p(last) then init + [last] else init
  }

  /** Filtering keeps every occurrence of a selected element and none of the others. */
  lemma {:induction false} FilterCounts<T(!new)>(s: seq<T>, p: T -> bool)
    ensures forall x :: multiset(Filter(s, p))[x] == if p(x) then multiset(s)[x] else 0
    decreases |s|
  {
    if |s| > 0 {
      var init, last := s[..|s| - 1], s[|s| - 1];
      FilterCounts(init, p);
      assert s == init + [last];
      assert multiset(s) == multiset(init) + multiset{last};
    }
  }

  /** Filtering keeps the selected elements in their original order. */
  lemma {:induction false} FilterIsSubsequence<T(!new)>(s: seq<T>, p: T -> bool)
    ensures IsSubsequence(Filter(s, p), s)
    decreases |s|
  {
    if |s| > 0 {
      var init, last := s[..|s| - 1], s[|s| - 1];
      FilterIsSubsequence(init, p);
      var r := Filter(s, p);
      if p(last) {
        assert r == Filter(init, p) + [last];
        assert r[..|r| - 1] == Filter(init, p);
      } else {
        SubsequenceOfLonger(r, init, last);
      }
    }
  }

  /** Python's `s.index(x)` where it exists: the first position holding `x`, or
      `|s|` when `x` is absent. */
  function Position<T(==)>(s: seq<T>, x: T): (p: nat)
    ensures p <= |s|
    ensures p < |s| <==> x in s
    ensures p < |s| ==> s[p] == x
    ensures forall j :: 0 <= j < p ==> s[j] != x
    decreases |s|
  {
    if |s| == 0 then 0
    else if s[0] == x then 0
    else
      var p := 1 + Position(s[1..], x);
      assert forall j :: 1 <= j < |s| ==> s[j] == s[1..][j - 1];
      p
  }

  /** Filtering by a condition after filtering by a weaker one is filtering by
      the condition alone. */
  lemma {:induction false} FilterNarrow<T(!new)>(s: seq<T>, q: T -> bool, p: T -> bool)
    requires forall x :: p(x) ==> q(x)
    ensures Filter(Filter(s, q), p) == Filter(s, p)
    decreases |s|
  {
    if |s| > 0 {
      var init, last := s[..|s| - 1], s[|s| - 1];
      FilterNarrow(init, q, p);
      var fq := Filter(s, q);
      if q(last) {
        assert fq == Filter(init, q) + [last];
        assert fq[..|fq| - 1] == Filter(init, q);
      }
    }
  }

  /** A subsequence of `s` is also one of `s + [x]`. */
  lemma {:induction false} SubsequenceOfLonger<T>(r: seq<T>, s: seq<T>, x: T)
    requires IsSubsequence(r, s)
    ensures IsSubsequence(r, s + [x])
    decreases |s|, 1
  {
    var s' := s + [x];
    assert s'[..|s'| - 1] == s;
    if |r| > 0 && r[|r| - 1] == x {
      SubsequenceDropLast(r, s);
    }
  }

  /** Dropping the last element of a subsequence leaves a subsequence. */
  lemma {:induction false} SubsequenceDropLast<T>(r: seq<T>, s: seq<T>)
    requires |r| > 0 && IsSubsequence(r, s)
    ensures IsSubsequence(r[..|r| - 1], s)
    decreases |s|, 0
  {
    var s0, last := s[..|s| - 1], s[|s| - 1];
    assert s0 + [last] == s;
    if r[|r| - 1] == last {
      SubsequenceOfLonger(r[..|r| - 1], s0, last);
    } else {
      SubsequenceDropLast(r, s0);
      SubsequenceOfLonger(r[..|r| - 1], s0, last);
    }
  }

  /** Python's `s[:k]`: the first `k` elements when `k >= 0`, and all but the
      last `-k` elements when `k` is negative, clipped to the sequence. */
  function SliceTo<T>(s: seq<T>, k: int): (r: seq<T>)
    ensures |r| == if k >= 0 then Min(k, |s|) else Max(0, |s| + k)
    ensures r == s[..|r|]
  {
    if k >= 0 then s[..Min(k, |s|)] else s[..Max(0, |s| + k)]
  }

  /** The distinct elements of `s` in order of first occurrence, each once. */
  function Distinct<T(==,!new)>(s: seq<T>): (r: seq<T>)
    ensures forall x :: x in r <==> x in s
    ensures forall x :: multiset(r)[x] == if x in s then 1 else 0
    decreases |s|
  {
    if |s| == 0 then []
    else
      var init := Distinct(s[..|s| - 1]);
      var last := s[|s| - 1];
      assert s == s[..|s| - 1] + [last];
      if last in init then init else init + [last]
  }

  /** Filtering distributes over concatenation. */
  lemma {:induction false} FilterAppend<T(!new)>(a: seq<T>, b: seq<T>, p: T -> bool)
    ensures Filter(a + b, p) == Filter(a, p) + Filter(b, p)
    decreases |b|
  {
    if |b| == 0 {
      assert a + b == a;
    } else {
      var b' := b[..|b| - 1];
      assert (a + b)[..|a + b| - 1] == a + b';
      FilterAppend(a, b', p);
    }
  }

  /** Filtering keeps a sequence whose every element passes. */
  lemma {:induction false} FilterAllKept<T(!new)>(s: seq<T>, p: T -> bool)
    requires forall i :: 0 <= i < |s| ==> p(s[i])
    ensures Filter(s, p) == s
    decreases |s|
  {
    if |s| > 0 {
      var init, last := s[..|s| - 1], s[|s| - 1];
      FilterAllKept(init, p);
      assert p(last);
      assert Filter(s, p) == Filter(init, p) + [last];
      assert init + [last] == s;
    }
  }

  /** A sequence without members is empty. */
  lemma NoMembersEmpty<T>(s: seq<T>)
    ensures (forall x :: x !in s) ==> s == []
  {
    if |s| > 0 {
      assert s[0] in s;
    }
  }

  /** The elements of `s` whose `key` is `k`, in order: the rows of one group. */
  function Having<T(==,!new), K(==)>(s: seq<T>, key: T -> K, k: K): (r: seq<T>)
    ensures forall x :: x in r <==> x in s && key(x) == k
  {
    if |s| == 0 then []
    else (if key(s[0]) == k then [s[0]] else []) + Having(s[1..], key, k)
  }

  /** Selecting by key distributes over concatenation. */
  lemma {:induction false} HavingAppend<T(!new), K>(a: seq<T>, b: seq<T>, key: T -> K, k: K)
    ensures Having(a + b, key, k) == Having(a, key, k) + Having(b, key, k)
    decreases |a|
  {
    if |a| == 0 {
      assert a + b == b;
    } else {
      assert (a + b)[0] == a[0] && (a + b)[1..] == a[1..] + b;
      HavingAppend(a[1..], b, key, k);
    }
  }

  /** A sequence whose every element has key `k` is its own selection. */
  lemma {:induction false} HavingAll<T(!new), K>(s: seq<T>, key: T -> K, k: K)
    requires forall x :: x in s ==> key(x) == k
    ensures Having(s, key, k) == s
    decreases |s|
  {
    if |s| > 0 {
      assert forall x :: x in s[1..] ==> x in s;
      HavingAll(s[1..], key, k);
      assert s == [s[0]] + s[1..];
    }
  }

  /** A sequence without an element of key `k` selects nothing. */
  lemma HavingNone<T(!new), K>(s: seq<T>, key: T -> K, k: K)
    requires forall x :: x in s ==> key(x) != k
    ensures Having(s, key, k) == []
  {
    NoMembersEmpty(Having(s, key, k));
  }

  /** Grouping `s` by `key` gives `parts` from position `i` on: the elements of
      key `start + k` are exactly `parts[k]`, in order, for every `k >= i`. */
  ghost predicate GroupedFrom<T(!new)>(s: seq<T>, key: T -> int, start: int, parts: seq<seq<T>>, i: nat)
  {
    forall k :: i <= k < |parts| ==> Having(s, key, start + k) == parts[k]
  }

  /** Part `i`, all of key `start + i`, followed by elements of larger keys
      grouped from `i + 1`, groups from `i`. */
  lemma GroupedCons<T(!new)>(first: seq<T>, rest: seq<T>, key: T -> int, start: int, parts: seq<seq<T>>, i: nat)
    requires i < |parts| && parts[i] == first
    requires forall x :: x in first ==> key(x) == start + i
    requires forall x :: x in rest ==> key(x) > start + i
    requires GroupedFrom(rest, key, start, parts, i + 1)
    ensures GroupedFrom(first + rest, key, start, parts, i)
  {
    forall k | i <= k < |parts|
      ensures Having(first + rest, key, start + k) == parts[k]
    {
      GroupedConsAt(first, rest, key, start + i, start + k);
    }
  }

  /** The elements of key `j` in part `first`, all of key `n`, followed by `rest`,
      all of keys above `n`: `first` itself for `j == n`, those of `rest` above. */
  lemma GroupedConsAt<T(!new)>(first: seq<T>, rest: seq<T>, key: T -> int, n: int, j: int)
    requires n <= j
    requires forall x :: x in first ==> key(x) == n
    requires forall x :: x in rest ==> key(x) > n
    ensures j == n ==> Having(first + rest, key, j) == first
    ensures j > n ==> Having(first + rest, key, j) == Having(rest, key, j)
  {
    HavingAppend(first, rest, key, j);
    if j == n {
      HavingAll(first, key, n);
      HavingNone(rest, key, n);
    } else {
      HavingNone(first, key, j);
    }
  }

  /** Taking a prefix away from `s` leaves exactly the elements after it. */
  lemma MultisetRest<T>(s: seq<T>, k: nat)
    requires k <= |s|
    ensures multiset(s[..k]) <= multiset(s)
    ensures multiset(s) - multiset(s[..k]) == multiset(s[k..])
  {
    assert s == s[..k] + s[k..];
    assert multiset(s) == multiset(s[..k]) + multiset(s[k..]);
  }

  /** The values of the present entries, in order. */
  function Somes<T(==,!new)>(xs: seq<Option<T>>): (r: seq<T>)
    ensures |r| <= |xs|
    ensures forall y :: y in r <==> Some(y) in xs
  {
    if |xs| == 0 then []
    else
      assert forall y :: Some(y) in xs ==> xs[0] == Some(y) || Some(y) in xs[1..];
      (if xs[0].Some? then [xs[0].value] else []) + Somes(xs[1..])
  }

  /** When the entry at position `i` that is present has key `base + i`, the
      present values come out in strictly increasing key order. */
  lemma {:induction false} SomesKeyed<T(!new)>(xs: seq<Option<T>>, key: T -> int, base: int)
    requires forall i :: 0 <= i < |xs| && xs[i].Some? ==> key(xs[i].value) == base + i
    ensures forall k, l :: 0 <= k < l < |Somes(xs)| ==> key(Somes(xs)[k]) < key(Somes(xs)[l])
    decreases |xs|
  {
    if |xs| > 0 {
      var tail := xs[1..];
      assert forall i :: 0 <= i < |tail| ==> tail[i] == xs[i + 1];
      SomesKeyed(tail, key, base + 1);
      var rest := Somes(tail);
      forall y | y in rest ensures key(y) > base {
        var i :| 0 <= i < |tail| && tail[i] == Some(y);
      }
      if xs[0].Some? {
        var r := Somes(xs);
        assert r == [xs[0].value] + rest;
        forall k, l | 0 <= k < l < |r| ensures key(r[k]) < key(r[l]) {
          assert r[l] == rest[l - 1];
          if k > 0 {
            assert r[k] == rest[k - 1];
          } else {
            assert rest[l - 1] in rest;
          }
        }
      }
    }
  }

  /** When every entry is present, nothing is dropped and positions are kept. */
  lemma {:induction false} SomesAll<T(!new)>(xs: seq<Option<T>>)
    requires forall k :: 0 <= k < |xs| ==> xs[k].Some?
    ensures |Somes(xs)| == |xs|
    ensures forall k :: 0 <= k < |xs| ==> Somes(xs)[k] == xs[k].value
  {
    if |xs| > 0 {
      assert forall k :: 0 <= k < |xs[1..]| ==> xs[1..][k] == xs[k + 1];
      SomesAll(xs[1..]);
      forall k | 1 <= k < |xs| ensures Somes(xs)[k] == xs[k].value {
        assert Somes(xs)[k] == Somes(xs[1..])[k - 1];
      }
    }
  }
}

=== FILE: sorting.dfy ===
/** Sorting as the scripts use it: Python's stable `sorted(..., key=...)`, and
    the ascending key order in which pandas' `groupby` visits its groups. */
module Sorting {
  import opened Seqs

  /** `s` is in non-decreasing order of `key`. */
  ghost predicate SortedBy<T>(s: seq<T>, key: T -> int)
  {
    forall i, j :: 0 <= i < j < |s| ==> key(s[i]) <= key(s[j])
  }

  /** `s` is in strictly increasing order of `key`. */
  ghost predicate StrictlyIncreasing<T>(s: seq<T>, key: T -> int)
  {
    forall i, j :: 0 <= i < j < |s| ==> key(s[i]) < key(s[j])
  }

  /** `s` is in strictly increasing order of `key`, ties broken by `tie`. */
  ghost predicate LexSorted<T>(s: seq<T>, key: T -> int, tie: T -> int)
  {
    forall i, j :: 0 <= i < j < |s| ==>
      key(s[i]) < key(s[j]) || (key(s[i]) == key(s[j]) && tie(s[i]) < tie(s[j]))
  }

  /** Places `x` before the first element whose key is not smaller than its own. */
  function Insert<T>(x: T, s: seq<T>, key: T -> int): (r: seq<T>)
    requires SortedBy(s, key)
    ensures SortedBy(r, key)
    ensures multiset(r) == multiset(s) + multiset{x}
    ensures |r| == |s| + 1
  {
    if |s| == 0 || key(x) <= key(s[0]) then
      InsertFront(x, s, key);
      [x] + s
    else
      var tail := Insert(x, s[1..], key);
      InsertBehind(x, s, tail, key);
      [s[0]] + tail
  }

  /** An element whose key is at most every key of a sorted sequence may go in front. */
  lemma ConsSorted<T>(h: T, t: seq<T>, key: T -> int)
    requires SortedBy(t, key)
    requires forall j :: 0 <= j < |t| ==> key(h) <= key(t[j])
    ensures SortedBy([h] + t, key)
  {
    var r := [h] + t;
    forall i, j | 0 <= i < j < |r|
      ensures key(r[i]) <= key(r[j])
    {
      if i > 0 {
        assert r[i] == t[i - 1] && r[j] == t[j - 1];
      } else {
        assert r[j] == t[j - 1];
      }
    }
  }

  lemma InsertFront<T>(x: T, s: seq<T>, key: T -> int)
    requires SortedBy(s, key)
    requires |s| == 0 || key(x) <= key(s[0])
    ensures SortedBy([x] + s, key)
  {
    ConsSorted(x, s, key);
  }

  lemma InsertBehind<T>(x: T, s: seq<T>, tail: seq<T>, key: T -> int)
    requires SortedBy(s, key) && |s| > 0 && key(s[0]) < key(x)
    requires SortedBy(tail, key)
    requires multiset(tail) == multiset(s[1..]) + multiset{x}
    ensures SortedBy([s[0]] + tail, key)
    ensures multiset([s[0]] + tail) == multiset(s) + multiset{x}
  {
    assert s == [s[0]] + s[1..];
    forall j | 0 <= j < |tail|
      ensures key(s[0]) <= key(tail[j])
    {
      assert tail[j] in multiset(tail);
      if tail[j] != x {
        assert tail[j] in multiset(s[1..]);
        var k :| 0 <= k < |s[1..]| && s[1..][k] == tail[j];
        assert s[k + 1] == tail[j];
      }
    }
    ConsSorted(s[0], tail, key);
  }

  /** Stable insertion sort by ascending `key`: a permutation of `s` in key order. */
  function SortBy<T>(s: seq<T>, key: T -> int): (r: seq<T>)
    ensures SortedBy(r, key)
    ensures multiset(r) == multiset(s)
    ensures |r| == |s|
  {
    if |s| == 0 then []
    else
      assert s == [s[0]] + s[1..];
      Insert(s[0], SortBy(s[1..], key), key)
  }

  /** `a` comes strictly before `b` in the order by key, then by `tie`. */
  ghost predicate LexBefore<T>(a: T, b: T, key: T -> int, tie: T -> int)
  {
    key(a) < key(b) || (key(a) == key(b) && tie(a) < tie(b))
  }

  lemma LexCons<T>(h: T, t: seq<T>, key: T -> int, tie: T -> int)
    requires LexSorted(t, key, tie)
    requires forall j :: 0 <= j < |t| ==> LexBefore(h, t[j], key, tie)
    ensures LexSorted([h] + t, key, tie)
  {
    var r := [h] + t;
    forall i, j | 0 <= i < j < |r|
      ensures LexBefore(r[i], r[j], key, tie)
    {
      if i > 0 {
        assert r[i] == t[i - 1] && r[j] == t[j - 1];
      }
    }
  }

  lemma {:induction false} InsertLex<T>(x: T, s: seq<T>, key: T -> int, tie: T -> int)
    requires SortedBy(s, key) && LexSorted(s, key, tie)
    requires forall y :: y in s ==> tie(x) < tie(y)
    ensures LexSorted(Insert(x, s, key), key, tie)
  {
    if |s| == 0 || key(x) <= key(s[0]) {
      forall j | 0 <= j < |s|
        ensures LexBefore(x, s[j], key, tie)
      {
        assert s[j] in s;
      }
      LexCons(x, s, key, tie);
    } else {
      var tail := Insert(x, s[1..], key);
      assert LexSorted(s[1..], key, tie);
      InsertLex(x, s[1..], key, tie);
      forall j | 0 <= j < |tail|
        ensures LexBefore(s[0], tail[j], key, tie)
      {
        assert tail[j] in multiset(tail);
        if tail[j] != x {
          assert tail[j] in multiset(s[1..]);
          var k :| 0 <= k < |s[1..]| && s[1..][k] == tail[j];
          assert s[k + 1] == tail[j];
        }
      }
      LexCons(s[0], tail, key, tie);
    }
  }

  /** Stability: when the input is in strictly increasing `tie` order, equal keys
      keep that order, so the result is sorted by key and then by `tie`. */
  lemma {:induction false} SortByIsStable<T>(s: seq<T>, key: T -> int, tie: T -> int)
    requires StrictlyIncreasing(s, tie)
    ensures LexSorted(SortBy(s, key), key, tie)
  {
    if |s| > 0 {
      var rest := SortBy(s[1..], key);
      SortByIsStable(s[1..], key, tie);
      forall y | y in rest
        ensures tie(s[0]) < tie(y)
      {
        assert y in multiset(s[1..]);
      }
      InsertLex(s[0], rest, key, tie);
    }
  }

  /** An element found at two positions occurs at least twice. */
  lemma RepeatedCountsTwice(s: seq<int>, i: nat, j: nat)
    requires i < j < |s| && s[i] == s[j]
    ensures multiset(s)[s[i]] >= 2
  {
    assert s == s[..j] + s[j..];
    assert s[i] in s[..j] && s[j] in s[j..];
  }

  /** A sorted sequence with no repeated element is strictly increasing. */
  lemma SortedOnceIsStrict(s: seq<int>)
    requires SortedBy(s, (x: int) => x)
    requires forall x :: multiset(s)[x] <= 1
    ensures forall i, j :: 0 <= i < j < |s| ==> s[i] < s[j]
  {
    forall i, j | 0 <= i < j < |s|
      ensures s[i] < s[j]
    {
      if s[i] == s[j] {
        RepeatedCountsTwice(s, i, j);
      }
    }
  }

  /** Two strictly increasing sequences with the same members are the same
      sequence: the ascending order of a set of ids is unique. */
  lemma {:induction false} StrictlySameMembers(a: seq<int>, b: seq<int>)
    requires forall i, j :: 0 <= i < j < |a| ==> a[i] < a[j]
    requires forall i, j :: 0 <= i < j < |b| ==> b[i] < b[j]
    requires forall x :: x in a <==> x in b
    ensures a == b
    decreases |a|
  {
    if |a| == 0 {
      NoMembersEmpty(b);
    } else {
      assert a[0] in a;
      assert a[0] in b;
      assert b[0] in a;
      assert a[0] == b[0];
      forall x ensures x in a[1..] <==> x in b[1..] {
        assert x in a[1..] <==> x in a && x != a[0];
        assert x in b[1..] <==> x in b && x != b[0];
      }
      StrictlySameMembers(a[1..], b[1..]);
      assert a == [a[0]] + a[1..];
      assert b == [b[0]] + b[1..];
    }
  }

  /** The distinct values of `xs` in ascending order: the order in which
      pandas' `groupby` (sorted keys) visits its groups. */
  function Ascending(xs: seq<int>): (r: seq<int>)
    ensures forall i, j :: 0 <= i < j < |r| ==> r[i] < r[j]
    ensures forall x :: x in r <==> x in xs
  {
    var d := Distinct(xs);
    var r := SortBy(d, (x: int) => x);
    assert forall x :: x in r <==> x in multiset(d);
    SortedOnceIsStrict(r);
    r
  }
}

=== FILE: text.dfy ===
/** String operations the scripts take from Python's `str`: prefix, suffix and
    substring tests, and splitting on a one-character separator. */
module Text {

  /** Python's `s.startswith(prefix)`. */
  predicate StartsWith(s: string, prefix: string)
  {
    |prefix| <= |s| && s[..|prefix|] == prefix
  }

  /** Python's `s.endswith(suffix)`. */
  predicate EndsWith(s: string, suffix: string)
  {
    |suffix| <= |s| && s[|s| - |suffix|..] == suffix
  }

  /** `pat` occurs in `s` starting at position `i`. */
  predicate OccursAt(s: string, pat: string, i: int)
  {
    0 <= i && i + |pat| <= |s| && s[i..i + |pat|] == pat
  }

  /** Python's `pat in s` for strings: `pat` occurs somewhere in `s`. */
  predicate Contains(s: string, pat: string)
  {
    exists i | 0 <= i <= |s| - |pat| :: OccursAt(s, pat, i)
  }

  /** Position of the first `c` in `s`. */
  function IndexOf(s: string, c: char): (i: nat)
    requires c in s
    ensures i < |s| && s[i] == c && c !in s[..i]
  {
    if s[0] == c then 0
    else
      var j := IndexOf(s[1..], c);
      assert s[..j + 1] == [s[0]] + s[1..][..j];
      1 + j
  }

  /** The first `c` in `s` is at the only position that holds `c` with no `c` before it. */
  lemma IndexOfUnique(s: string, c: char, i: nat)
    requires i < |s| && s[i] == c && c !in s[..i]
    ensures IndexOf(s, c) == i
  {
  }

  /** Python's `sep.join(parts)` for a one-character separator. */
  function Join(parts: seq<string>, sep: char): string
  {
    if |parts| == 0 then ""
    else if |parts| == 1 then parts[0]
    else parts[0] + [sep] + Join(parts[1..], sep)
  }

  /** Python's `s.split(sep)` for a one-character separator: the pieces between
      separators, empty pieces included, which join back into `s`. */
  function Split(s: string, sep: char): (parts: seq<string>)
    ensures |parts| >= 1
    ensures |parts| > 1 <==> sep in s
    ensures forall i :: 0 <= i < |parts| ==> sep !in parts[i]
    ensures Join(parts, sep) == s
    ensures parts[0] == if sep in s then s[..IndexOf(s, sep)] else s
    decreases |s|
  {
    if sep !in s then [s]
    else
      var i := IndexOf(s, sep);
      var rest := Split(s[i + 1..], sep);
      assert s == s[..i] + [sep] + s[i + 1..];
      assert ([s[..i]] + rest)[1..] == rest;
      [s[..i]] + rest
  }

  /** Splitting at the first separator: the piece before it, then the split of the rest. */
  lemma SplitAtFirst(s: string, sep: char, i: nat)
    requires i < |s| && s[i] == sep && sep !in s[..i]
    ensures Split(s, sep) == [s[..i]] + Split(s[i + 1..], sep)
  {
    IndexOfUnique(s, sep, i);
  }

  /** Splitting a join of separator-free pieces gives the pieces back. */
  lemma {:induction false} SplitJoin(parts: seq<string>, sep: char)
    requires |parts| >= 1
    requires forall i :: 0 <= i < |parts| ==> sep !in parts[i]
    ensures Split(Join(parts, sep), sep) == parts
    decreases |parts|
  {
    if |parts| > 1 {
      var p := parts[0];
      var tail := Join(parts[1..], sep);
      var s := Join(parts, sep);
      assert s == p + [sep] + tail;
      assert s[|p|] == sep && s[..|p|] == p && s[|p| + 1..] == tail;
      SplitAtFirst(s, sep, |p|);
      SplitJoin(parts[1..], sep);
      assert Split(s, sep) == [p] + parts[1..] == parts;
    } else {
      assert sep !in parts[0];
    }
  }
}

=== FILE: wrappers.dfy ===
/** Failure-carrying values shared by the model: an optional value, and a
    value-or-error that stands in for the exceptions the scripts raise. */
module Wrappers {

  datatype Option<+T> = None | Some(value: T)

  datatype Result<+T, +E> = Ok(value: T) | Err(error: E)
}
